=== FILE: README.md ===
# fractlab in Dafny

A model of the core of fractlab, a GPU fractal viewer written in Go. The
viewer shows one fractal of a family whose members are described by six
real numbers: an additive constant `C` and two two-coefficient polynomial
descriptors `PZ0` and `PZn`. An animation morphs a source descriptor into
a destination one by linear interpolation. The user pans and zooms the view
and moves through the animation with the mouse, the scroll wheel and the
keyboard, and can load a saved view from a file. Each frame pushes the
current descriptor and view to a fragment program as OpenGL uniforms and
draws one screen-covering triangle.

The model is purely functional:

- `Fractals`: the descriptor, its flattening to a six-vector, and the
  interpolator `GetFractal`.
- `AppState`: the application state (animation, view, controls) and the
  invariant `Valid`: sensitivity and blend weight in [0, 1], scale positive.
- `Control`: the current input callbacks (control.go), as pure transitions.
- `Viewer`: the full-screen triangle, the seven fractal uniforms and their
  per-frame values, and the older variant of the callbacks (viewer.go).
- `Config`: loading a saved view.
- `MainLoop`: the initial state, start-up, one frame, and a replay of window
  events that keeps the invariant.
- `Gl`, `Render`, `Meshes`, `ShaderSource`, `CanvasShader`, `FractalShader`,
  `ShaderProgram`: the graphics package. OpenGL is an abstract context: a
  name counter, the bindings, the live shader objects, the value stored at
  each uniform location, and a log of every call. What the driver decides
  (compile and link verdicts, uniform locations) comes from a `Driver` oracle.
  Files are a map from path to contents.
- `RealMath`: `math.Pow` for whole exponents, and `Clamp`.

Every float32/float64 is a `real`, and scroll offsets are whole notches.
Effects the callbacks ask of the window (close it, save a snapshot) are
returned as values.

viewer.go and control.go both declare `ControlState` and the focus constants
in package `main`, so they are two versions of the same controller.
control.go's callbacks are the ones `main` installs, and the `Control`
module models them. viewer.go's `initCanvas`, `getUniforms` and
`setUniforms` are used by `main`. Its three callbacks are modelled as
variants in `Viewer`.

Behaviours of the code worth knowing:

- A uniform name missing from a program's table reads as location 0 (Go's
  map zero value). It does not fail (`Gl.Lookup`).
- `ProgramNew` leaks shader objects on its error paths. A vertex compile
  failure leaves the failed vertex object alive. An unreadable fragment
  source leaves the vertex object alive. A fragment compile failure leaves
  both the vertex object and the failed fragment object alive. A link
  failure leaves both objects alive.
- `Mesh.Load` does not check that face indices name existing vertices. The
  fixed meshes are valid (`CanvasShader.QuadValid`, `Viewer.TriangleValid`).
- `Load` accepts any scale the file holds. A non-positive one breaks the
  invariant (`Config.LoadBadScale`).

## Model

| member | source | states |
|---|---|---|
| Fractals.FlattenRoundTrip | fractals/fractals.go:37-44 | unflattening the six-vector of a descriptor gives the descriptor back |
| Fractals.UnflattenRoundTrip | fractals/fractals.go:40-44 | flattening the descriptor built from a six-vector gives the vector back |
| Fractals.FlattenInjective | fractals/fractals.go:37-38 | two descriptors have the same six-vector exactly when they are equal |
| Fractals.Mandelbrot | fractals/fractals.go:14-20 | the Mandelbrot descriptor flattens to [0, 0, 0, 1, 1, 0] |
| Fractals.Julia | fractals/fractals.go:22-28 | the Julia descriptor of c flattens to [c.re, c.im, 0, 0, 1, 0]; it shares PZn with the Mandelbrot descriptor and differs from it in PZ0 for every c |
| Fractals.GetFractal | fractals/fractals.go:35-45 | the flatten/lerp/unflatten pipeline equals blending each named field with its own counterpart (reference definition `Blend`) |
| Fractals.GetFractalAtZero | fractals/fractals.go:35-45 | at weight 0 the source comes back exactly |
| Fractals.GetFractalAtOne | fractals/fractals.go:35-45 | at weight 1 the destination comes back exactly |
| Fractals.MixBetween | fractals/fractals.go:39 | for a weight in [0, 1] a blended component lies between its two ends |
| Fractals.MixWithin | fractals/fractals.go:39 | both blends of an ordered pair lie inside the pair |
| Fractals.GetFractalBetween | fractals/fractals.go:35-45 | for a weight in [0, 1] every component of the result lies between the source and destination components |
| Fractals.GetFractalFixed | fractals/fractals.go:39 | morphing a descriptor into itself gives it at every weight |
| Fractals.MixCancels | fractals/fractals.go:39 | one blend equal at two different weights forces the ends to be equal |
| Fractals.GetFractalInjectiveInTime | fractals/fractals.go:35-45 | a morph between two different descriptors gives different results at different weights |
| Fractals.JuliaBlendIsJulia | fractals/fractals.go:22-28 | blending two Julia sets gives the Julia set of the blended constant |
| Fractals.MandelbrotToJuliaMidpoint | fractals/fractals.go:14-28 | halfway from Mandelbrot to Julia(-0.6+0.6i) is C = -0.3+0.3i, PZ0 = (0, 0.5), PZn = (1, 0) |
| Gl.WrapInt32 | graphics/render.go:52 | `int32(x)` is x when it fits and otherwise differs from x by a multiple of 2^32 |
| Gl.Join | graphics/render.go:23-27 | the contiguous memory of n three-float (or two-float) arrays has 3n (or 2n) floats, and float 3k+j (or 2k+j) is component j of array k |
| Gl.Lookup | graphics/canvas.go:30-32 | a name in the table gives its location; a missing name gives 0, a real location, not GL's ignored -1 (consequences in `CanvasShader.MissingNameLandsAtZero` and `ShaderProgram.ResolvedLookup`) |
| Render.Indices | graphics/render.go:45-50 | the index memory of the faces holds three indices per face: positions 3k, 3k+1, 3k+2 hold i0, i1, i2 of face k |
| Render.Staging | graphics/render.go:23-27 | the staging copy equals the input vertices component by component |
| Render.GenArrayBuffer | graphics/render.go:29-30 | a new buffer name becomes the bound array buffer; nothing else but the name counter and the log changes |
| Render.GenElementBuffer | graphics/render.go:43-44 | a new buffer name becomes the element buffer of the bound vertex array |
| Render.ConstructVBO | graphics/render.go:21-39 | succeeds exactly for non-empty input, otherwise panics; the new buffer is bound and filled with 12 bytes per vertex; apart from the name counter and the array-buffer binding, nothing else in the context changes |
| Render.ConstructEBO | graphics/render.go:41-53 | succeeds exactly for non-empty input; its count is the number of faces; it is recorded in the bound vertex array; every other element-buffer entry, binding, shader, program and uniform is left as it was |
| Render.RecordBuffers | graphics/render.go:56-61 | a new vertex array is bound and records both buffers |
| Render.ConstructVAO | graphics/render.go:55-69 | the vertex array inherits the element buffer's count, keeps that buffer, and is unbound on return; the array-buffer binding is the vertex buffer, other element-buffer entries are kept, and shaders, program and uniforms are left as they were |
| Render.DescribeAndUnbind | graphics/render.go:63-66 | attribute 0 is described and enabled, and the vertex array binding returns to 0 |
| Render.DrawVao | graphics/render.go:71-75 | binds the array, draws, and leaves the binding at 0 with nothing else changed |
| Render.DrawVaoCount | graphics/render.go:73 | a vertex array of n faces draws 3n indices while that fits in an int32 |
| Meshes.Load | graphics/mesh.go:14-19 | vertex buffer, element buffer, then vertex array, in that order; succeeds exactly when both lists are non-empty; the count is the number of faces; shaders, program and uniforms never change, and on success the context differs only by the three new names, their bindings and the two new element-buffer entries |
| ShaderSource.ShaderSourceFromPath | graphics/program.go:31-34 | the text is the file contents followed by exactly one NUL, and the failure flag is set exactly when the file cannot be read |
| CanvasShader.GetSource | graphics/canvas.go:17-23 | the canvas shader's text, or a panic exactly when its file cannot be read |
| CanvasShader.SetUniforms | graphics/canvas.go:29-33 | one write per declared name, in order, at that name's location, each correctly sized |
| CanvasShader.SetUniformsReadsOnlyOwnNames | graphics/canvas.go:29-33 | tables that agree on the three declared names give the same writes |
| CanvasShader.SetUniformsDelivers | graphics/canvas.go:29-33 | at three distinct live locations, the program holds the offset, the scale and the aspect ratio afterwards |
| CanvasShader.MissingNameLandsAtZero | graphics/canvas.go:29-33 | a table without "offset" sends the offset write to location 0, and when the scale also reads 0 the scale overwrites it there, so the offset is lost |
| CanvasShader.IgnoredNamesWriteNothing | graphics/canvas.go:29-33 | by contrast, names at GL's location -1 leave every stored uniform as it was |
| CanvasShader.Draw | graphics/canvas.go:35-37 | drawing the canvas draws its vertex array and leaves the binding at 0 |
| CanvasShader.QuadValid | graphics/canvas.go:39-44 | the quad has 4 vertices and 2 faces, all indices in range |
| CanvasShader.Load | graphics/canvas.go:39-44 | loading keeps the view transform and stores a vertex array of 2 faces |
| CanvasShader.CanvasNew | graphics/canvas.go:46-55 | offset, scale and aspect are stored unchanged over a loaded quad |
| FractalShader.GetSource | graphics/fractal.go:15-21 | the fractal shader's text, or a panic exactly when its file cannot be read |
| FractalShader.SetUniforms | graphics/fractal.go:27-32 | one write per declared name in order, each at that name's location; the counts of the colour wheel and polynomial writes equal the lengths of those arrays |
| FractalShader.SetUniformsReadsOnlyOwnNames | graphics/fractal.go:27-32 | tables that agree on the four declared names give the same writes |
| FractalShader.SetUniformsDelivers | graphics/fractal.go:27-32 | at four distinct live locations, the program holds the colour wheel, the polynomial, the divergence bound and the iteration limit afterwards |
| ShaderProgram.SourceOf | graphics/program.go:11-15 | reading a stage's source either succeeds or panics; it never returns an error |
| ShaderProgram.Submit | graphics/program.go:93-97 | creating a shader object adds it to the live objects and hands it its source |
| ShaderProgram.Compile | graphics/program.go:92-113 | succeeds exactly when the driver accepts; the object is created either way; the error names the source and carries the info log |
| ShaderProgram.ResolveUniforms | graphics/program.go:73-78 | the table gains exactly the looked-up names, each at its location, and other entries are unchanged |
| ShaderProgram.Link | graphics/program.go:47-56 | a new program is created, both shaders are attached, and it is linked |
| ShaderProgram.DeleteBoth | graphics/program.go:70-71 | both shader objects stop being live |
| ShaderProgram.ResolveBoth | graphics/program.go:73-78 | the key set of the table is the union of both stages' names, each at its location |
| ShaderProgram.ResolvedLookup | graphics/program.go:73-78 | on a resolved table, looking up any declared name gives the driver's location, never the map default 0 |
| ShaderProgram.LinkAndResolve | graphics/program.go:47-80 | a link failure gives the "failed to link program" error and deletes nothing; success deletes both shaders once and resolves the union of names |
| ShaderProgram.ProgramNew | graphics/program.go:36-81 | success exactly when both sources read, both stages compile and the program links; the error paths in order (vertex read, vertex compile, fragment read, fragment compile, link), which shader objects each leaves behind, and the table on success; on success the calls are both compiles, the link, one delete of each shader, then the uniform lookups |
| ShaderProgram.Activate | graphics/program.go:84-85 | the window's context is made current and the program becomes the one in use |
| ShaderProgram.PushBoth | graphics/program.go:86-87 | pushing both stages' uniforms changes only the stored values and the log |
| ShaderProgram.Draw | graphics/program.go:83-90 | make current, use program, vertex uniforms, fragment uniforms, then the vertex stage draws |
| ShaderProgram.DrawDeliversViewTransform | graphics/program.go:83-90 | when the fragment stage does not overwrite them, the program holds the canvas's view transform after a draw |
| RealMath.Pow | control.go:69 | a power of a non-zero base is non-zero, of a positive base positive, of zero zero |
| RealMath.Clamp | control.go:65 | the result lies in [lo, hi] and is x when x already does |
| Control.NormalizeCursor | control.go:36-38 | window pixels map to device coordinates and back, and the window maps into [-1, 1] |
| Control.CursorPos | control.go:33-59 | a left drag pans so that the point under the cursor stays under it; the mouse is stored; a right click in Coefficient focus pins both constants to the point under the cursor |
| Control.DragPathIndependent | control.go:39-46 | a drag in two moves pans as far as the same drag in one |
| Control.PinnedConstantIsConstant | control.go:48-56 | after pinning, every frame of the animation has the pinned constant |
| Control.CursorPosPreservesValid | control.go:33-59 | the cursor callback keeps the invariant |
| Control.ZoomBase | control.go:69 | the zoom step lies in [0.9, 1], and below 1 for a positive sensitivity |
| Control.Tune | control.go:64-65 | after the horizontal step the sensitivity lies in [0, 1] and nothing else changes |
| Control.TuneRoundTrip | control.go:64-65 | n notches to the right followed by n notches to the left restore the state: the multiplication by 0.95^n never reaches the clamp |
| Control.TuneLowers | control.go:64-65 | a notch to the right strictly lowers a positive sensitivity, which stays positive |
| Control.TuneRaises | control.go:64-65 | notches to the left never lower the sensitivity (capped at 1) |
| Control.TuneStill | control.go:64-65 | without a horizontal step a sensitivity in [0, 1] is left as it is |
| Control.Zoom | control.go:68-69 | zooming keeps a positive scale positive and changes only the scale |
| Control.ZoomRoundTrip | control.go:68-69 | zooming n notches and back n notches restores the view |
| Control.Wheel | control.go:67-73 | the vertical step changes only the scale under Scale focus; under Time focus it sets the weight to T + 0.01 yoff sensitivity clamped to [0, 1]; nothing otherwise |
| Control.Scroll | control.go:61-75 | after a scroll the controls are those of `Control.Tune` by the horizontal offset, so the sensitivity is in [0, 1]; only the focused quantity changes; under Time focus the weight moves by 0.01 yoff times the tuned sensitivity, clamped to [0, 1] |
| Control.ScrollKeepsControls | control.go:64-65 | a purely vertical scroll leaves the controls untouched |
| Control.ScrollPreservesValid | control.go:61-75 | the scroll callback keeps the invariant for every whole offset |
| Control.ScrollTimeSaturates | control.go:70-72 | a long enough scroll under Time focus lands exactly on weight 1 |
| Control.ScrollScale | control.go:68-69 | under Scale focus a vertical scroll multiplies the scale by (1 - 0.1 sensitivity)^yoff and changes nothing else |
| Control.WheelZoomRoundTrip | control.go:67-73 | the vertical step and its opposite restore the view |
| Control.ScrollZoomRoundTrip | control.go:61-75 | under Scale focus, scrolling n notches and back restores the view |
| Control.ZoomShrinks | control.go:69 | a scroll up at a positive sensitivity shrinks a positive scale, by a factor no smaller than 0.9 per notch |
| Control.Preset | control.go:103-122 | every sensitivity preset lies in (0, 1] |
| Control.PresetOrdered | control.go:103-122 | digits 1 to 9 give increasing sensitivities up to 0.5 at digit 9, and digit 0 gives the largest, 1 |
| Control.KeyEvent | control.go:77-136 | Escape press closes; releases of N/S/T/C set the focus and keep the sensitivity, Ctrl+S saves with the focus unchanged, and digits set presets; a held P scrolls one notch; every other event changes nothing |
| Control.KeyPreservesValid | control.go:77-136 | the key callback keeps the invariant |
| Viewer.TriangleValid | viewer.go:61-66 | the canvas mesh has 3 vertices and the one face (0, 1, 2), all indices in range |
| Viewer.Weights | viewer.go:62 | every point of the viewport has non-negative barycentric weights in the triangle, so the triangle covers the screen |
| Viewer.InitCanvas | viewer.go:61-66 | loading the triangle succeeds with a vertex array of one face, left unbound |
| Viewer.CanvasDrawsOneTriangle | viewer.go:63-65 | drawing the canvas draws 3 indices and leaves the binding at 0 |
| Viewer.GetUniforms | viewer.go:78-92 | field i of the uniform record is the location of the i-th fractal uniform name; only location queries are issued |
| Viewer.SetUniformCalls | viewer.go:94-105 | seven writes at the seven looked-up locations; C, PZ0 and PZn go in the same component order as `GetFractal`'s flattening |
| Viewer.SetUniformsTargetsNames | viewer.go:78-105 | each write lands at the location the driver gives the matching name |
| Viewer.SetUniformsDelivers | viewer.go:94-105 | at seven separate live locations, the program reads back exactly the pushed view and fractal |
| Viewer.CursorPos | viewer.go:107-120 | a left drag pans by the mouse movement times the scale; the mouse is stored; the animation is untouched |
| Viewer.CursorPosAgrees | viewer.go:107-120 | the variant is the current cursor callback without the right button |
| Viewer.VariantBase | viewer.go:130 | the variant zoom base lies in [0, 1] and is 0 exactly at sensitivity 1 |
| Viewer.Wheel | viewer.go:128-134 | the variant step diverges exactly at sensitivity 1 scrolling down under Scale focus; otherwise the scale is multiplied by (1 - sensitivity)^yoff, or the weight set to T + yoff sensitivity clamped to [0, 1], by focus |
| Viewer.Scroll | viewer.go:122-136 | the sensitivity is tuned as in the current controller; then the scale is multiplied by (1 - sensitivity)^yoff, diverging exactly at sensitivity 1 scrolling down, or the weight moves by yoff times the sensitivity, clamped to [0, 1] |
| Viewer.WheelScalePositive | viewer.go:129-130 | below sensitivity 1 the variant zoom keeps the invariant |
| Viewer.WheelCollapses | viewer.go:129-130 | at sensitivity 1 a scroll up sets the scale to 0, and the scroll back diverges |
| Viewer.WheelRoundTrip | viewer.go:129-130 | below sensitivity 1 the variant zoom can be undone |
| Viewer.Key | viewer.go:138-165 | Escape press closes; releases of N/S/T set the focus; Ctrl+S saves with the focus unchanged; nothing else changes |
| Viewer.KeyAgrees | viewer.go:138-165 | on keys both versions know, the variant agrees with the current key callback, and the effects always agree |
| Viewer.KeyPreservesValid | viewer.go:138-165 | the variant key callback keeps the invariant |
| Config.Overwrite | config.go:48-51 | decoding overwrites exactly the fields the file names, never the aspect ratio or the uniforms |
| Config.OverwriteIdempotent | config.go:48-51 | decoding the same file twice is the same as decoding it once |
| Config.OverwriteNothing | config.go:48-51 | a file with no fields leaves the view as it was |
| Config.Load | config.go:22-56 | a cancelled dialog changes nothing; every other failure is fatal; otherwise Src is the old fractal, Dest the decoded one, the weight 1, and the controls are untouched |
| Config.LoadShowsDecoded | config.go:53-55 | after a load the next frame's fractal is the decoded one |
| Config.LoadWithoutFractalIsStill | config.go:45-55 | a file without a fractal leaves the picture unchanged at every weight |
| Config.LoadPreservesValid | config.go:45-55 | loading keeps the invariant when the file's scale, if any, is positive |
| Config.LoadBadScale | config.go:48-51 | a file with a non-positive scale breaks the invariant |
| MainLoop.InitialState | main.go:83-103 | the initial state has the invariant, its first frame is the Mandelbrot set, and a full morph reaches the Julia set of -0.6+0.6i |
| MainLoop.AspectRatio | main.go:113 | the ratio exists exactly for a non-zero height, times the height gives the width, and is positive for a positive width |
| MainLoop.Start | main.go:112-118 | start-up sets the aspect ratio and the uniform table, loads a one-face canvas, and keeps the invariant |
| MainLoop.Clear | main.go:126-127 | clearing only adds to the log |
| MainLoop.Paint | main.go:124-128 | a frame's GL calls are the uniform pushes, the clear, then the canvas draw, which leaves the binding at 0 |
| MainLoop.Frame | main.go:123-128 | each frame recomputes the fractal from the animation before pushing and drawing, and keeps the invariant |
| MainLoop.FrameDeliversFractal | main.go:123-124 | after a frame the program reads the animation's current fractal and the view |
| MainLoop.FrameStateIdempotent | main.go:123 | redrawing without input leaves the state unchanged |
| MainLoop.Handle | control.go:26-31 | defined for every state and event; from a valid state every callback keeps the invariant, as does a load whose scale is positive; only a load can be fatal |
| MainLoop.Replay | main.go:120-131 | any session can be replayed, including one after a load with a non-positive scale; sane events from a valid state reach only valid states, and a session without a load ends normally from any state |
| MainLoop.SessionValid | main.go:79-131 | every run of the program without a load keeps the invariant from the initial state on |
| MainLoop.VariantScrollCollapsesInitialView | viewer.go:129-130 | from the initial state in Scale focus, one variant notch up gives scale 0, and the notch back diverges |
| MainLoop.ScrollKeepsInitialView | control.go:68-69 | from the same state the current scroll keeps the invariant and can be undone |

## Left out

- GLFW window creation, window hints, event polling and buffer swapping (viewer.go:35-59, main.go:105-131) are I/O. Events reach `MainLoop.Replay` already normalised, and `Replay` does not act on the close and save effects.
- `fontTest` (main.go:34-77) is experimental text rendering.
- `Save`, `archive` and `screenshot` (config.go:16-20, 58-103) do TOML encoding, file creation, PNG encoding and a background goroutine. A Ctrl+S release appears only as the `SaveSnapshot` effect.
- The file dialog, the file system and the TOML decoder inside `Load` are parameters: the dialog's answer, the open and close errors, and the decoded fields. The nested `Fractal` table is decoded whole or not at all.
- `graphics.BindRenderer` is not part of this model. The program `main` gets from it is a parameter of `MainLoop.Start`.
- float32 rounding, NaN and infinities are not modelled; `math.Pow` is modelled only for whole exponents. Equalities such as the zoom round trip hold over the reals, not over IEEE floats.
- The shader source files are a map from path to text; their GLSL is not modelled.
- ShaderProgram.Compile: on failure Go's `compileShader` also returns the id 0. The model returns only the error, because `ProgramNew` discards that id.
- Control.NormalizeCursor: requires a non-zero window size. Go divides by zero there and gets infinities or NaN, which reals cannot hold.
- MainLoop.Start: requires a non-zero framebuffer height, for the same reason. `MainLoop.AspectRatio` itself handles height 0 as `Undefined`.
- Control.Zoom: requires a sensitivity in [0, 1]. Every caller has just clamped it. The same holds for `Control.Wheel` and `Viewer.Wheel`.
- Control.ZoomShrinks: bounds the scale factor of `Control.ScrollScale` as a separate arithmetic fact. It is not one inequality about `Control.Scroll`.
- Viewer.Key: the variant's `save(w)` on Ctrl+S calls a function the repository does not define. It is modelled as the same `SaveSnapshot` effect.
- `Load` is not bound to any key in either callback version. `MainLoop.Replay` offers it as an event of its own.

## Findings

| source | as written | input that shows it | evidently intended | confidence | as-written member | corrected member |
|---|---|---|---|---|---|---|
| viewer.go:129-130 | `Scale *= Pow(1 - Sensitivity, yoff)`: at the initial sensitivity 1.0 (main.go:91) the zoom base is 0 | focus Scale (release S), then one scroll notch up: the scale becomes 0 and the view collapses; the notch back down computes `Pow(0, -1)` = +Inf | a zoom step strictly between 0 and 1 for every sensitivity in [0, 1], as control.go:69 does with `1 - 0.1*Sensitivity` | high for the stale variant, not executed | MainLoop.VariantScrollCollapsesInitialView | MainLoop.ScrollKeepsInitialView |

=== FILE: appstate.dfy ===
/**
 The application state of the viewer (main.go, control.go, viewer.go): the
 animation being shown, the view over the complex plane and the state of
 the input controls. `Valid` is the invariant every transition keeps.
 */
module AppState {
  import opened Gl
  import opened Fractals

  /** What a scroll adjusts. The older controller in viewer.go knows only
      the first three. */
  datatype Mode = None | Scale | Time | Coefficient

  datatype ControlState = ControlState(mouseX: real, mouseY: real, focus: Mode, sensitivity: real)

  /** The uniform locations of the fractal program (viewer.go's `Uniforms`). */
  datatype Uniforms = Uniforms(aspect: Int32, c: Int32, pz0: Int32, pzn: Int32,
                               offR: Int32, offI: Int32, scale: Int32)

  /** `viewerState`: the view (offset and scale of the complex plane), the
      fractal last shown, and the unexported aspect ratio and uniform table. */
  datatype ViewerState = ViewerState(
    offsetX: real,
    offsetY: real,
    scale: real,
    fractal: Fractal,
    aspectRatio: real,
    uniforms: Uniforms)

  datatype State = State(animation: Animation, viewer: ViewerState, control: ControlState)

  /** Sensitivity and blend weight stay in [0, 1] and the view never
      collapses or flips. */
  predicate Valid(s: State) {
    && 0.0 <= s.control.sensitivity <= 1.0
    && 0.0 <= s.animation.time <= 1.0
    && s.viewer.scale > 0.0
  }

  /** `u.C`, `u.PZ0`, ... before any lookup: Go's zero value. */
  function NoUniforms(): Uniforms {
    Uniforms(0, 0, 0, 0, 0, 0, 0)
  }
}

=== FILE: canvas.dfy ===
/**
 The vertex stage (graphics/canvas.go): a full-viewport quad plus the view
 transform (offset, scale, aspect ratio) it pushes as uniforms.
 */
module CanvasShader {
  import opened Gl
  import opened Render
  import opened Meshes
  import opened ShaderSource

  datatype Canvas = Canvas(offset: Vec2, scale: real, aspect: real, vao: VAO)

  const SourcePath := "graphics/shaders/canvas.vert"

  /** `GetSource`: the shader text, or a panic when the file cannot be read. */
  function GetSource(c: Canvas, files: Files): (r: Outcome<string>)
    ensures r.Ok? <==> SourcePath in files
    ensures !r.Ok? ==> r.Abort?
    ensures r.Ok? ==> r.value == files[SourcePath] + "\0"
  {
    var s := ShaderSourceFromPath(files, SourcePath);
    if s.failed then Abort(SourcePath) else Ok(s.text)
  }

  function GetUniformNames(c: Canvas): seq<string> {
    ["offset", "scale", "aspect"]
  }

  /** `SetUniforms`: one write per declared name, in declared order, at the
      location the table gives that name. The receiver is a value: nothing
      about the canvas changes. */
  function SetUniforms(c: Canvas, u: map<string, int>): (r: seq<Call>)
    ensures Pushes(r)
    ensures |r| == |GetUniformNames(c)|
    ensures forall i :: 0 <= i < |r| ==> r[i].location == Lookup(u, GetUniformNames(c)[i])
    ensures forall i :: 0 <= i < |r| ==> r[i].WellSized()
  {
    [Uniform2fv(Lookup(u, "offset"), 1, c.offset),
     Uniform1f(Lookup(u, "scale"), c.scale),
     Uniform1f(Lookup(u, "aspect"), c.aspect)]
  }

  /** The pushes depend on the table only through the declared names. */
  lemma SetUniformsReadsOnlyOwnNames(c: Canvas, u1: map<string, int>, u2: map<string, int>)
    requires forall n :: n in GetUniformNames(c) ==> Lookup(u1, n) == Lookup(u2, n)
    ensures SetUniforms(c, u1) == SetUniforms(c, u2)
  {
    assert "offset" in GetUniformNames(c);
    assert "scale" in GetUniformNames(c);
    assert "aspect" in GetUniformNames(c);
  }

  /** When the three names sit at distinct live locations, the program in use
      ends up holding the offset, the scale and the aspect ratio there. */
  lemma SetUniformsDelivers(c: Canvas, u: map<string, int>, ctx: Context)
    requires Lookup(u, "offset") != -1 && Lookup(u, "scale") != -1 && Lookup(u, "aspect") != -1
    requires Lookup(u, "offset") != Lookup(u, "scale")
    requires Lookup(u, "scale") != Lookup(u, "aspect")
    requires Lookup(u, "aspect") != Lookup(u, "offset")
    ensures var g := Run(ctx, SetUniforms(c, u));
      && (ctx.program, Lookup(u, "offset")) in g.uniforms
      && (ctx.program, Lookup(u, "scale")) in g.uniforms
      && (ctx.program, Lookup(u, "aspect")) in g.uniforms
      && g.uniforms[(ctx.program, Lookup(u, "offset"))] == Floats(c.offset)
      && g.uniforms[(ctx.program, Lookup(u, "scale"))] == Floats([c.scale])
      && g.uniforms[(ctx.program, Lookup(u, "aspect"))] == Floats([c.aspect])
  {
    var calls := SetUniforms(c, u);
    RunStoresLastWrite(ctx, calls, 0);
    RunStoresLastWrite(ctx, calls, 1);
    RunStoresLastWrite(ctx, calls, 2);
  }

  /** A name missing from the table is not skipped: Go's map index reads it
      as location 0. When the scale also sits at 0, the offset written there
      is overwritten by the scale, whereas a name at location -1 is ignored
      and leaves the stored uniforms as they were. */
  lemma MissingNameLandsAtZero(c: Canvas, u: map<string, int>, ctx: Context)
    requires "offset" !in u && Lookup(u, "scale") == 0 && Lookup(u, "aspect") != 0
    ensures SetUniforms(c, u)[0].location == 0
    ensures var g := Run(ctx, SetUniforms(c, u));
      && (ctx.program, 0) in g.uniforms
      && g.uniforms[(ctx.program, 0)] == Floats([c.scale])
      && g.uniforms[(ctx.program, 0)] != Floats(c.offset)
  {
    var calls := SetUniforms(c, u);
    RunStoresLastWrite(ctx, calls, 1);
  }

  /** By contrast, names the GL reports as -1 write nothing at all. */
  lemma IgnoredNamesWriteNothing(c: Canvas, u: map<string, int>, ctx: Context)
    requires Lookup(u, "offset") == -1 && Lookup(u, "scale") == -1 && Lookup(u, "aspect") == -1
    ensures Run(ctx, SetUniforms(c, u)).uniforms == ctx.uniforms
  {
    var calls := SetUniforms(c, u);
    var g1 := Step(ctx, calls[0]);
    var g2 := Step(g1, calls[1]);
    assert calls[1..][1..] == [calls[2]];
    assert Run(ctx, calls) == Run(g2, [calls[2]]);
    assert Run(g2, [calls[2]]) == Step(g2, calls[2]);
    assert g1.uniforms == ctx.uniforms;
    assert g2.uniforms == ctx.uniforms;
  }

  /** `Draw`: delegates to the quad's vertex array. */
  function Draw(c: Canvas, ctx: Context): (r: Context)
    ensures r.log == ctx.log + DrawCalls(c.vao)
    ensures r.vertexArray == 0
  {
    DrawVao(ctx, c.vao)
  }

  /** The quad built by `load`: two triangles over four corners. */
  function Quad(): Mesh {
    Mesh([[-1.0, -1.0, 0.0], [-1.0, 1.0, 0.0], [1.0, 1.0, 0.0], [1.0, -1.0, 0.0]],
         [Surface(0, 1, 2), Surface(0, 2, 3)])
  }

  lemma QuadValid()
    ensures Valid(Quad())
    ensures |Quad().vertices| == 4 && |Quad().faces| == 2
  {
  }

  /** `load`: upload the quad and keep its vertex array. */
  method Load(c: Canvas, ctx: Context) returns (r: Issued<Canvas>)
    ensures r.out.Ok?
    ensures r.out.value == c.(vao := r.out.value.vao)
    ensures r.out.value.vao.count == 2
    ensures r.out.value.vao.name == NextName(ctx) + 2 == r.gl.lastName
    ensures r.gl.vertexArray == 0
  {
    QuadValid();
    var loaded := Meshes.Load(ctx, Quad());
    r := Issued(Ok(c.(vao := loaded.out.value)), loaded.gl);
  }

  /** `CanvasNew`: the view transform as given, over a freshly loaded quad. */
  method CanvasNew(ctx: Context, offset: Vec2, scale: real, aspect: real) returns (r: Issued<Canvas>)
    ensures r.out.Ok?
    ensures r.out.value.offset == offset && r.out.value.scale == scale && r.out.value.aspect == aspect
    ensures r.out.value.vao.count == 2
    ensures r.gl.vertexArray == 0
  {
    r := Load(Canvas(offset, scale, aspect, VAO(0, 0)), ctx);
  }
}

=== FILE: config.dfy ===
/**
 Loading a saved view (config.go, `Load`). The file dialog, the file system
 and the TOML decoder are reduced to their answers, which are parameters:
 the dialog's choice, the errors of opening and closing the file, and the
 fields the decoder found.
 */
module Config {
  import opened Fractals
  import opened AppState

  datatype Maybe<T> = Given(value: T) | Missing

  /** How the file dialog ends. */
  datatype DialogAnswer = Chosen(filename: string) | Cancelled | DialogFailed(err: string)

  /** The exported fields of `viewerState` a snapshot file may set; the
      aspect ratio and the uniform table are unexported and never decoded. */
  datatype Snapshot = Snapshot(offsetX: Maybe<real>, offsetY: Maybe<real>, scale: Maybe<real>,
                               fractal: Maybe<Fractal>)

  datatype Decoded = Decoded(snapshot: Snapshot) | DecodeFailed(err: string)

  /** `log.Fatal` ends the process; otherwise the program goes on with the
      new state. */
  datatype LoadOutcome = Continue(next: State) | Fatal(reason: string)

  function Pick<T>(m: Maybe<T>, current: T): T {
    if m.Given? then m.value else current
  }

  /** Decoding into a `viewerState`: the fields the file names are
      overwritten, the others keep their value. */
  function Overwrite(v: ViewerState, snap: Snapshot): (r: ViewerState)
    ensures r.aspectRatio == v.aspectRatio && r.uniforms == v.uniforms
    ensures snap.offsetX.Given? ==> r.offsetX == snap.offsetX.value
    ensures snap.offsetY.Given? ==> r.offsetY == snap.offsetY.value
    ensures snap.scale.Given? ==> r.scale == snap.scale.value
    ensures snap.fractal.Given? ==> r.fractal == snap.fractal.value
    ensures snap.offsetX.Missing? ==> r.offsetX == v.offsetX
    ensures snap.offsetY.Missing? ==> r.offsetY == v.offsetY
    ensures snap.scale.Missing? ==> r.scale == v.scale
    ensures snap.fractal.Missing? ==> r.fractal == v.fractal
  {
    v.(offsetX := Pick(snap.offsetX, v.offsetX), offsetY := Pick(snap.offsetY, v.offsetY),
       scale := Pick(snap.scale, v.scale), fractal := Pick(snap.fractal, v.fractal))
  }

  /** Decoding the same file twice changes nothing the first decode did not. */
  lemma OverwriteIdempotent(v: ViewerState, snap: Snapshot)
    ensures Overwrite(Overwrite(v, snap), snap) == Overwrite(v, snap)
  {
  }

  /** A file that names no field leaves the view as it was. */
  lemma OverwriteNothing(v: ViewerState)
    ensures Overwrite(v, Snapshot(Missing, Missing, Missing, Missing)) == v
  {
  }

  /** `Load`. A cancelled dialog returns before anything changes; any
      other dialog error, an open error, a decode error or a close error
      is fatal. Otherwise the fractal shown so far becomes the source of
      the animation, the decoded fractal its destination, and the blend
      weight is set to 1. */
  function Load(s: State, dialog: DialogAnswer, openErr: Maybe<string>, decoded: Decoded,
                closeErr: Maybe<string>): (r: LoadOutcome)
    ensures dialog.Cancelled? ==> r == Continue(s)
    ensures dialog.DialogFailed? ==> r == Fatal(dialog.err)
    ensures dialog.Chosen? && openErr.Given? ==> r == Fatal(openErr.value)
    ensures dialog.Chosen? && openErr.Missing? && decoded.DecodeFailed? ==> r == Fatal(decoded.err)
    ensures r.Continue? <==>
      dialog.Cancelled? || (dialog.Chosen? && openErr.Missing? && decoded.Decoded? && closeErr.Missing?)
    ensures r.Continue? && dialog.Chosen? ==>
      && r.next.viewer == Overwrite(s.viewer, decoded.snapshot)
      && r.next.animation == Animation(s.viewer.fractal, r.next.viewer.fractal, 1.0)
      && r.next.control == s.control
  {
    match dialog
    case Cancelled => Continue(s)
    case DialogFailed(err) => Fatal(err)
    case Chosen(_) =>
      if openErr.Given? then Fatal(openErr.value)
      else
        var withSource := s.(animation := s.animation.(src := s.viewer.fractal));
        match decoded
        case DecodeFailed(err) => Fatal(err)
        case Decoded(snap) =>
          var v := Overwrite(withSource.viewer, snap);
          var next := withSource.(viewer := v, animation := withSource.animation.(dest := v.fractal, time := 1.0));
          if closeErr.Given? then Fatal(closeErr.value) else Continue(next)
  }

  /** The next frame shows the loaded fractal. */
  lemma LoadShowsDecoded(s: State, filename: string, snap: Snapshot)
    ensures var r := Load(s, Chosen(filename), Missing, Decoded(snap), Missing);
      GetFractal(r.next.animation) == r.next.viewer.fractal
  {
    GetFractalAtOne(Load(s, Chosen(filename), Missing, Decoded(snap), Missing).next.animation);
  }

  /** A file without a fractal leaves the picture where it is: the
      animation becomes the still of the fractal shown before. */
  lemma LoadWithoutFractalIsStill(s: State, filename: string, snap: Snapshot, t: real)
    requires snap.fractal.Missing?
    ensures var r := Load(s, Chosen(filename), Missing, Decoded(snap), Missing);
      GetFractal(r.next.animation.(time := t)) == s.viewer.fractal
  {
    GetFractalFixed(s.viewer.fractal, t);
  }

  /** Loading keeps the invariant unless the file sets a scale that is not
      positive. */
  lemma LoadPreservesValid(s: State, dialog: DialogAnswer, openErr: Maybe<string>, decoded: Decoded,
                           closeErr: Maybe<string>)
    requires Valid(s)
    requires decoded.Decoded? && decoded.snapshot.scale.Given? ==> decoded.snapshot.scale.value > 0.0
    ensures var r := Load(s, dialog, openErr, decoded, closeErr);
      r.Continue? ==> Valid(r.next)
  {
  }

  /** A file with a non-positive scale breaks the invariant. */
  lemma LoadBadScale(s: State, filename: string, snap: Snapshot)
    requires snap.scale.Given? && snap.scale.value <= 0.0
    ensures !Valid(Load(s, Chosen(filename), Missing, Decoded(snap), Missing).next)
  {
  }
}

=== FILE: control.dfy ===
/**
 The input controller (control.go): cursor, scroll and key callbacks as
 pure transitions of the application state. The window itself is reduced to
 what the callbacks read from it (its size and the mouse buttons) and what
 they ask of it (closing, saving), which is returned as an `Effect`.
 */
module Control {
  import opened Fractals
  import opened RealMath
  import opened AppState

  /** `2*xpos/width - 1` and `-(2*ypos/height - 1)`: window pixels to
      [-1, 1] device coordinates, y pointing up. */
  function NormalizeCursor(width: nat, height: nat, xpos: real, ypos: real): (r: (real, real))
    requires width > 0 && height > 0
    ensures xpos == (r.0 + 1.0) * (width as real) / 2.0
    ensures ypos == (1.0 - r.1) * (height as real) / 2.0
    ensures 0.0 <= xpos <= width as real ==> -1.0 <= r.0 <= 1.0
    ensures 0.0 <= ypos <= height as real ==> -1.0 <= r.1 <= 1.0
  {
    (2.0 * xpos / width as real - 1.0, -(2.0 * ypos / height as real - 1.0))
  }

  /** `cursorPosCallback` once the position is normalised to `(x, y)`.
      Dragging with the left button pans the view so that the point of the
      plane under the cursor stays under it; in Coefficient focus the right
      button pins the additive constant of both ends of the animation to
      the point under the cursor. */
  function CursorPos(s: State, x: real, y: real, left: bool, right: bool): (r: State)
    ensures left ==> r.viewer.offsetX + x * s.viewer.scale == s.viewer.offsetX + s.control.mouseX * s.viewer.scale
    ensures left ==> r.viewer.offsetY + y * s.viewer.scale == s.viewer.offsetY + s.control.mouseY * s.viewer.scale
    ensures !left ==> r.viewer == s.viewer
    ensures r.viewer == s.viewer.(offsetX := r.viewer.offsetX, offsetY := r.viewer.offsetY)
    ensures r.control == s.control.(mouseX := x, mouseY := y)
    ensures s.control.focus == Coefficient && right ==>
      && r.animation.src.c == r.animation.dest.c
            == Complex(r.viewer.offsetX + x * s.viewer.scale, r.viewer.offsetY + y * s.viewer.scale)
      && r.animation == s.animation.(src := s.animation.src.(c := r.animation.src.c),
                                     dest := s.animation.dest.(c := r.animation.dest.c))
    ensures !(s.control.focus == Coefficient && right) ==> r.animation == s.animation
    ensures Valid(s) ==> Valid(r)
  {
    var v := if left then
        s.viewer.(offsetX := s.viewer.offsetX + (s.control.mouseX - x) * s.viewer.scale,
                  offsetY := s.viewer.offsetY + (s.control.mouseY - y) * s.viewer.scale)
      else s.viewer;
    var control := s.control.(mouseX := x, mouseY := y);
    if control.focus == Coefficient && right then
      var c := Complex(v.offsetX + x * v.scale, v.offsetY + y * v.scale);
      State(s.animation.(src := s.animation.src.(c := c), dest := s.animation.dest.(c := c)), v, control)
    else
      State(s.animation, v, control)
  }

  /** A drag in two moves pans exactly as far as the same drag in one. */
  lemma DragPathIndependent(s: State, x1: real, y1: real, x2: real, y2: real)
    ensures var once := CursorPos(s, x2, y2, true, false);
            var twice := CursorPos(CursorPos(s, x1, y1, true, false), x2, y2, true, false);
            twice.viewer == once.viewer && twice.control == once.control
  {
    var mid := CursorPos(s, x1, y1, true, false);
    assert mid.viewer.scale == s.viewer.scale;
    var twice := CursorPos(mid, x2, y2, true, false);
    assert twice.viewer.offsetX == s.viewer.offsetX + (s.control.mouseX - x2) * s.viewer.scale by {
      assert twice.viewer.offsetX == mid.viewer.offsetX + (x1 - x2) * s.viewer.scale;
    }
    assert twice.viewer.offsetY == s.viewer.offsetY + (s.control.mouseY - y2) * s.viewer.scale by {
      assert twice.viewer.offsetY == mid.viewer.offsetY + (y1 - y2) * s.viewer.scale;
    }
  }

  /** Once pinned, the additive constant no longer moves with the blend
      weight: every frame of the animation shows the pinned constant. */
  lemma PinnedConstantIsConstant(s: State, x: real, y: real, left: bool, t: real)
    requires s.control.focus == Coefficient
    ensures var r := CursorPos(s, x, y, left, true);
      GetFractal(r.animation.(time := t)).c == r.animation.src.c
  {
    var a := CursorPos(s, x, y, left, true).animation.(time := t);
    assert Mix(a.src.c.re, a.src.c.re, t) == a.src.c.re;
    assert Mix(a.src.c.im, a.src.c.im, t) == a.src.c.im;
  }

  /** The multiplicative zoom step: `1 - 0.1*Sensitivity`, in [0.9, 1]
      for a sensitivity in [0, 1]. */
  function ZoomBase(sensitivity: real): (r: real)
    requires 0.0 <= sensitivity <= 1.0
    ensures 0.9 <= r <= 1.0
    ensures sensitivity > 0.0 ==> r < 1.0
  {
    1.0 - sensitivity * 0.1
  }

  /** The first half of `scrollCallback`: the horizontal step scales the
      sensitivity by 0.95 per notch, clamped to [0, 1]. */
  function Tune(s: State, xoff: int): (r: State)
    ensures 0.0 <= r.control.sensitivity <= 1.0
    ensures r == s.(control := s.control.(sensitivity := r.control.sensitivity))
  {
    s.(control := s.control.(sensitivity := Clamp(s.control.sensitivity * Pow(0.95, xoff), 0.0, 1.0)))
  }

  /** Without a horizontal step a sensitivity in [0, 1] stays as it is. */
  lemma TuneStill(s: State)
    requires 0.0 <= s.control.sensitivity <= 1.0
    ensures Tune(s, 0) == s
  {
    assert Pow(0.95, 0) == 1.0;
  }

  /** Turning the sensitivity down `n` notches and back up `n` notches
      restores it: going down never hits the clamp. */
  lemma TuneRoundTrip(s: State, n: int)
    requires 0.0 <= s.control.sensitivity <= 1.0 && n >= 0
    ensures Tune(Tune(s, n), -n) == s
  {
    var x, p, q := s.control.sensitivity, Pow(0.95, n), Pow(0.95, -n);
    PowAtMostOne(0.95, n);
    ShrinkAtMostOne(p, x);
    MulMonotone(0.0, x, p);
    ScaleRoundTrip(x, 0.95, n);
    var once := Tune(s, n);
    assert once.control.sensitivity == x * p;
    assert Tune(once, -n).control.sensitivity == Clamp((x * p) * q, 0.0, 1.0) == x;
  }

  /** Each notch to the right lowers a positive sensitivity, which stays
      positive. */
  lemma TuneLowers(s: State, n: int)
    requires 0.0 < s.control.sensitivity <= 1.0 && n > 0
    ensures 0.0 < Tune(s, n).control.sensitivity < s.control.sensitivity
  {
    PowBelowOne(0.95, n);
    ClampShrunk(s.control.sensitivity, Pow(0.95, n));
  }

  /** Notches to the left raise the sensitivity, up to the cap 1. */
  lemma TuneRaises(s: State, n: int)
    requires 0.0 <= s.control.sensitivity <= 1.0 && n < 0
    ensures s.control.sensitivity <= Tune(s, n).control.sensitivity
  {
    PowNegativeAtLeastOne(0.95, n);
    ClampGrown(s.control.sensitivity, Pow(0.95, n));
  }

  /** `Viewer.Scale *= Pow(1 - 0.1*Sensitivity, yoff)`. */
  function Zoom(v: ViewerState, sensitivity: real, n: int): (r: ViewerState)
    requires 0.0 <= sensitivity <= 1.0
    ensures r == v.(scale := r.scale)
    ensures v.scale > 0.0 ==> r.scale > 0.0
    ensures n == 0 ==> r == v
  {
    v.(scale := v.scale * Pow(ZoomBase(sensitivity), n))
  }

  /** Zooming `n` notches and back `n` notches at one sensitivity restores
      the view. */
  lemma ZoomRoundTrip(v: ViewerState, sensitivity: real, n: int)
    requires 0.0 <= sensitivity <= 1.0
    ensures Zoom(Zoom(v, sensitivity, n), sensitivity, -n) == v
  {
    var once := Zoom(v, sensitivity, n);
    assert once.scale == v.scale * Pow(ZoomBase(sensitivity), n);
    ScaleRoundTrip(v.scale, ZoomBase(sensitivity), n);
  }

  /** The second half of `scrollCallback`: the vertical step zooms under
      Scale focus and moves the blend weight (clamped to [0, 1]) under
      Time focus, both at the sensitivity already tuned. */
  function Wheel(s: State, yoff: int): (r: State)
    requires 0.0 <= s.control.sensitivity <= 1.0
    ensures r.control == s.control
    ensures s.control.focus == Scale ==>
      && r.animation == s.animation
      && r.viewer == s.viewer.(scale := r.viewer.scale)
      && (s.viewer.scale > 0.0 ==> r.viewer.scale > 0.0)
      && (yoff == 0 ==> r.viewer == s.viewer)
    ensures s.control.focus == Time ==>
      && r.viewer == s.viewer
      && r.animation == s.animation.(time := r.animation.time)
      && 0.0 <= r.animation.time <= 1.0
      && r.animation.time == Clamp(s.animation.time + (yoff as real) * s.control.sensitivity * 0.01, 0.0, 1.0)
    ensures s.control.focus == None || s.control.focus == Coefficient ==> r == s
  {
    match s.control.focus
    case Scale =>
      s.(viewer := Zoom(s.viewer, s.control.sensitivity, yoff))
    case Time =>
      var t := s.animation.time + (yoff as real) * s.control.sensitivity * 0.01;
      s.(animation := s.animation.(time := Clamp(t, 0.0, 1.0)))
    case _ =>
      s
  }

  /** `scrollCallback` for integer wheel steps: tune, then apply the
      vertical step at the new sensitivity. */
  function Scroll(s: State, xoff: int, yoff: int): (r: State)
    ensures 0.0 <= r.control.sensitivity <= 1.0
    ensures r.control == Tune(s, xoff).control
    ensures r.control == s.control.(sensitivity := r.control.sensitivity)
    ensures s.control.focus == Scale ==>
      && r.animation == s.animation
      && r.viewer == s.viewer.(scale := r.viewer.scale)
      && (s.viewer.scale > 0.0 ==> r.viewer.scale > 0.0)
      && (yoff == 0 ==> r.viewer == s.viewer)
    ensures s.control.focus == Time ==>
      && r.viewer == s.viewer
      && r.animation == s.animation.(time := r.animation.time)
      && 0.0 <= r.animation.time <= 1.0
      && r.animation.time == Clamp(s.animation.time + (yoff as real) * r.control.sensitivity * 0.01, 0.0, 1.0)
    ensures s.control.focus == None || s.control.focus == Coefficient ==>
      r.viewer == s.viewer && r.animation == s.animation
  {
    Wheel(Tune(s, xoff), yoff)
  }

  /** With no horizontal step a valid state's controls stay as they are. */
  lemma ScrollKeepsControls(s: State, yoff: int)
    requires 0.0 <= s.control.sensitivity <= 1.0
    ensures Scroll(s, 0, yoff).control == s.control
  {
    TuneStill(s);
  }

  lemma ScrollPreservesValid(s: State, xoff: int, yoff: int)
    requires Valid(s)
    ensures Valid(Scroll(s, xoff, yoff))
  {
  }

  /** Under Time focus a long enough scroll lands exactly on the end of the
      animation. */
  lemma ScrollTimeSaturates(s: State, yoff: int)
    requires Valid(s) && s.control.focus == Time
    requires (yoff as real) * s.control.sensitivity >= 100.0
    ensures Scroll(s, 0, yoff).animation.time == 1.0
  {
    TuneStill(s);
    assert (yoff as real) * s.control.sensitivity * 0.01 >= 1.0;
  }

  /** Under Scale focus and with no horizontal step, a scroll multiplies
      the scale by the zoom step raised to the vertical step and changes
      nothing else. */
  lemma ScrollScale(s: State, yoff: int)
    requires Valid(s) && s.control.focus == Scale
    ensures Scroll(s, 0, yoff) ==
      s.(viewer := s.viewer.(scale := s.viewer.scale * Pow(ZoomBase(s.control.sensitivity), yoff)))
  {
    TuneStill(s);
    assert Scroll(s, 0, yoff) == Wheel(s, yoff);
  }

  /** Under Scale focus, scrolling one way and back restores the view. */
  lemma ScrollZoomRoundTrip(s: State, n: int)
    requires Valid(s) && s.control.focus == Scale
    ensures Scroll(Scroll(s, 0, n), 0, -n).viewer == s.viewer
  {
    TuneStill(s);
    TuneStill(Wheel(s, n));
    WheelZoomRoundTrip(s, n);
  }

  lemma WheelZoomRoundTrip(s: State, n: int)
    requires Valid(s) && s.control.focus == Scale
    ensures Wheel(Wheel(s, n), -n).viewer == s.viewer
  {
    ZoomRoundTrip(s.viewer, s.control.sensitivity, n);
  }

  /** The zoom of `ScrollScale` at a live sensitivity: scrolling up `n`
      notches shrinks a positive scale, and by no more than 0.9 per notch. */
  lemma ZoomShrinks(scale: real, sensitivity: real, n: int)
    requires 0.0 < sensitivity <= 1.0 && scale > 0.0 && n > 0
    ensures scale * Pow(0.9, n) <= scale * Pow(ZoomBase(sensitivity), n) < scale
  {
    PowShrinks(scale, ZoomBase(sensitivity), n);
  }

  /** Sensitivity presets: digit `d` in 1..9 selects 0.5^(10-d), and 0
      selects 0.5^0 = 1. */
  type Digit = d: int | 0 <= d <= 9

  function Preset(d: Digit): (r: real)
    ensures 0.0 < r <= 1.0
  {
    PowAtMostOne(0.5, if d == 0 then 0 else 10 - d);
    if d == 0 then Pow(0.5, 0) else Pow(0.5, 10 - d)
  }

  /** Higher digits are coarser, with 0 the coarsest of all. */
  lemma PresetOrdered(d: Digit, e: Digit)
    requires 1 <= d < e
    ensures Preset(d) < Preset(e) < Preset(0)
    ensures Preset(0) == 1.0 && Preset(9) == 0.5
  {
    PowStrictlyDecreasingFrom(0.5, 10 - e, 10 - d);
    PowBelowOne(0.5, 10 - e);
  }

  datatype Key = KeyEscape | KeyN | KeyS | KeyT | KeyC | KeyP | KeyDigit(d: Digit) | KeyOther

  datatype Action = Press | Release | Repeat

  /** GLFW's modifier bits. The callbacks compare the whole set with `==`,
      so Ctrl+Shift+S is not Ctrl+S. */
  const ModShift: int := 1
  const ModControl: int := 2

  /** What a key asks of the window: nothing, to close, or to `Save`. */
  datatype Effect = NoEffect | CloseWindow | SaveSnapshot

  datatype Reaction = Reaction(next: State, effect: Effect)

  /** `keyCallback`. Escape closes on press; on release N, S, T and C pick
      the scroll focus (Ctrl+S saves instead), and digits pick a sensitivity
      preset; a held P scrolls the animation by one notch, backwards with
      Shift. */
  function KeyEvent(s: State, key: Key, action: Action, mods: int): (r: Reaction)
    ensures r.effect == CloseWindow <==> action == Press && key == KeyEscape
    ensures r.effect == SaveSnapshot <==> action == Release && key == KeyS && mods == ModControl
    ensures action != Repeat ==> r.next.animation == s.animation && r.next.viewer == s.viewer
    ensures action == Release ==>
      r.next.control == s.control.(focus := r.next.control.focus, sensitivity := r.next.control.sensitivity)
    ensures action == Release && key == KeyN ==> r.next.control.focus == None
    ensures action == Release && key == KeyS ==>
      r.next.control.focus == (if mods == ModControl then s.control.focus else Scale)
    ensures action == Release && key == KeyT ==> r.next.control.focus == Time
    ensures action == Release && key == KeyC ==> r.next.control.focus == Coefficient
    ensures action == Release && key.KeyDigit? ==>
      r.next.control == s.control.(sensitivity := Preset(key.d))
    ensures action == Repeat && key == KeyP ==>
      r.next == Scroll(s, 0, if mods == ModShift then -1 else 1)
    ensures action == Release && !key.KeyDigit? ==> r.next.control.sensitivity == s.control.sensitivity
    ensures (|| action == Press
             || (action == Release && (key == KeyEscape || key == KeyP || key == KeyOther))
             || (action == Repeat && key != KeyP)) ==>
      r.next == s
  {
    match action
    case Press =>
      Reaction(s, if key == KeyEscape then CloseWindow else NoEffect)
    case Release =>
      (match key
       case KeyN => Reaction(s.(control := s.control.(focus := None)), NoEffect)
       case KeyS =>
         if mods == ModControl then Reaction(s, SaveSnapshot)
         else Reaction(s.(control := s.control.(focus := Scale)), NoEffect)
       case KeyT => Reaction(s.(control := s.control.(focus := Time)), NoEffect)
       case KeyC => Reaction(s.(control := s.control.(focus := Coefficient)), NoEffect)
       case KeyDigit(d) => Reaction(s.(control := s.control.(sensitivity := Preset(d))), NoEffect)
       case _ => Reaction(s, NoEffect))
    case Repeat =>
      if key == KeyP then Reaction(Scroll(s, 0, if mods == ModShift then -1 else 1), NoEffect)
      else Reaction(s, NoEffect)
  }

  lemma KeyPreservesValid(s: State, key: Key, action: Action, mods: int)
    requires Valid(s)
    ensures Valid(KeyEvent(s, key, action, mods).next)
  {
    if action == Repeat && key == KeyP {
      ScrollPreservesValid(s, 0, if mods == ModShift then -1 else 1);
    }
  }

  /** Every callback keeps the invariant. */
  lemma CursorPosPreservesValid(s: State, x: real, y: real, left: bool, right: bool)
    requires Valid(s)
    ensures Valid(CursorPos(s, x, y, left, right))
  {
  }
}

=== FILE: fractals.dfy ===
/**
 The fractal descriptor and its interpolator (fractals/fractals.go).

 A descriptor is an additive constant `C` and two 2-coefficient polynomial
 descriptors `PZ0` and `PZn`. An `Animation` morphs a source descriptor into a
 destination one; `GetFractal` flattens both into six reals, blends them
 linearly with weight `time` and unflattens the result.
 */
module Fractals {

  /** Go's `complex64`, as a pair of reals. */
  datatype Complex = Complex(re: real, im: real)

  /** Go's `[2]Polynomial`. */
  datatype Coeffs = Coeffs(c0: real, c1: real)

  datatype Fractal = Fractal(c: Complex, pz0: Coeffs, pzn: Coeffs)

  /** The blend weight is called `T` in the package and `Time` by its callers;
      the model uses one field, `time`. */
  datatype Animation = Animation(src: Fractal, dest: Fractal, time: real)

  function Mandelbrot(): (r: Fractal)
    ensures Flatten(r) == [0.0, 0.0, 0.0, 1.0, 1.0, 0.0]
  {
    Fractal(Complex(0.0, 0.0), Coeffs(0.0, 1.0), Coeffs(1.0, 0.0))
  }

  /** The Julia descriptor of `c` carries `c` as its constant and differs
      from the Mandelbrot descriptor in `PZ0` alone, whatever `c` is. */
  function Julia(c: Complex): (r: Fractal)
    ensures Flatten(r) == [c.re, c.im, 0.0, 0.0, 1.0, 0.0]
    ensures r.pzn == Mandelbrot().pzn && r.pz0 != Mandelbrot().pz0
  {
    Fractal(c, Coeffs(0.0, 0.0), Coeffs(1.0, 0.0))
  }

  /** The six-component vector `GetFractal` works on. */
  type Vec6 = v: seq<real> | |v| == 6 witness [0.0, 0.0, 0.0, 0.0, 0.0, 0.0]

  /** `[C.re, C.im, PZ0[0], PZ0[1], PZn[0], PZn[1]]` */
  function Flatten(f: Fractal): Vec6 {
    [f.c.re, f.c.im, f.pz0.c0, f.pz0.c1, f.pzn.c0, f.pzn.c1]
  }

  function Unflatten(v: Vec6): Fractal {
    Fractal(Complex(v[0], v[1]), Coeffs(v[2], v[3]), Coeffs(v[4], v[5]))
  }

  /** One component of `src*(1-t) + dest*t`. */
  function Mix(a: real, b: real, t: real): real {
    a * (1.0 - t) + b * t
  }

  /** `vsrc.Mul(1-t).Add(vdest.Mul(t))`, component-wise. */
  function Lerp(a: Vec6, b: Vec6, t: real): Vec6 {
    seq(6, i requires 0 <= i < 6 => Mix(a[i], b[i], t))
  }

  /** `GetFractal`: flatten both ends, blend the vectors, unflatten. The
      component order is consistent on both sides, so the result blends
      each named field with its own counterpart. */
  function GetFractal(a: Animation): (r: Fractal)
    ensures r == Blend(a.src, a.dest, a.time)
  {
    var v := Lerp(Flatten(a.src), Flatten(a.dest), a.time);
    assert v[0] == Mix(a.src.c.re, a.dest.c.re, a.time);
    assert v[5] == Mix(a.src.pzn.c1, a.dest.pzn.c1, a.time);
    Unflatten(v)
  }

  /** Reference definition: blend every named field of the record directly,
      with no intermediate vector. */
  function Blend(src: Fractal, dest: Fractal, t: real): Fractal {
    Fractal(
      Complex(Mix(src.c.re, dest.c.re, t), Mix(src.c.im, dest.c.im, t)),
      Coeffs(Mix(src.pz0.c0, dest.pz0.c0, t), Mix(src.pz0.c1, dest.pz0.c1, t)),
      Coeffs(Mix(src.pzn.c0, dest.pzn.c0, t), Mix(src.pzn.c1, dest.pzn.c1, t)))
  }

  predicate Between(x: real, a: real, b: real) {
    (a <= x <= b) || (b <= x <= a)
  }

  lemma FlattenRoundTrip(f: Fractal)
    ensures Unflatten(Flatten(f)) == f
  {
  }

  lemma UnflattenRoundTrip(v: Vec6)
    ensures Flatten(Unflatten(v)) == v
  {
    assert Flatten(Unflatten(v)) == [v[0], v[1], v[2], v[3], v[4], v[5]];
  }

  /** Flattening loses nothing: different descriptors give different vectors. */
  lemma FlattenInjective(f: Fractal, g: Fractal)
    ensures Flatten(f) == Flatten(g) <==> f == g
  {
    if Flatten(f) == Flatten(g) {
      FlattenRoundTrip(f);
      FlattenRoundTrip(g);
    }
  }

  /** With weight 0 the source comes back exactly. */
  lemma GetFractalAtZero(a: Animation)
    requires a.time == 0.0
    ensures GetFractal(a) == a.src
  {
  }

  /** With weight 1 the destination comes back exactly. */
  lemma GetFractalAtOne(a: Animation)
    requires a.time == 1.0
    ensures GetFractal(a) == a.dest
  {
  }

  lemma MixBetween(a: real, b: real, t: real)
    requires 0.0 <= t <= 1.0
    ensures Between(Mix(a, b, t), a, b)
  {
    if a <= b {
      MixWithin(a, b, t);
    } else {
      MixWithin(b, a, t);
    }
  }

  /** Both blends of an ordered pair lie between the pair. */
  lemma MixWithin(lo: real, hi: real, t: real)
    requires 0.0 <= t <= 1.0 && lo <= hi
    ensures lo <= Mix(lo, hi, t) <= hi
    ensures lo <= Mix(hi, lo, t) <= hi
  {
    WeightMonotone(lo, hi, t);
    WeightShrinks(lo, hi, t);
    MixAwayFromLow(lo, hi, t);
    MixAwayFromHigh(lo, hi, t);
  }

  lemma WeightMonotone(x: real, y: real, t: real)
    requires x <= y && 0.0 <= t
    ensures x * t <= y * t
  {
  }

  lemma WeightShrinks(x: real, y: real, t: real)
    requires x <= y && t <= 1.0
    ensures y * t - x * t <= y - x
  {
    assert (y - x) - (y * t - x * t) == (y - x) * (1.0 - t);
  }

  lemma MixAwayFromLow(lo: real, hi: real, t: real)
    requires lo * t <= hi * t
    ensures lo <= Mix(lo, hi, t) && Mix(hi, lo, t) <= hi
  {
  }

  lemma MixAwayFromHigh(lo: real, hi: real, t: real)
    requires hi * t - lo * t <= hi - lo
    ensures Mix(lo, hi, t) <= hi && lo <= Mix(hi, lo, t)
  {
  }

  /** For a weight in [0, 1] every component of the result lies between the
      corresponding source and destination components. */
  lemma GetFractalBetween(a: Animation)
    requires 0.0 <= a.time <= 1.0
    ensures forall i :: 0 <= i < 6 ==>
      Between(Flatten(GetFractal(a))[i], Flatten(a.src)[i], Flatten(a.dest)[i])
  {
    var s, d := Flatten(a.src), Flatten(a.dest);
    forall i | 0 <= i < 6
      ensures Between(Flatten(GetFractal(a))[i], s[i], d[i])
    {
      UnflattenRoundTrip(Lerp(s, d, a.time));
      MixBetween(s[i], d[i], a.time);
    }
  }

  /** Morphing a descriptor into itself is constant in time. */
  lemma GetFractalFixed(f: Fractal, t: real)
    ensures GetFractal(Animation(f, f, t)) == f
  {
  }

  /** Equal blends of the same pair at two different weights force the pair
      to agree. */
  lemma MixCancels(a: real, b: real, t1: real, t2: real)
    requires t1 != t2
    requires Mix(a, b, t1) == Mix(a, b, t2)
    ensures a == b
  {
    assert (b - a) * (t1 - t2) == Mix(a, b, t1) - Mix(a, b, t2) == 0.0;
  }

  /** A morph between two different descriptors never plateaus: two
      different weights give two different results. */
  lemma GetFractalInjectiveInTime(src: Fractal, dest: Fractal, t1: real, t2: real)
    requires src != dest
    requires t1 != t2
    ensures GetFractal(Animation(src, dest, t1)) != GetFractal(Animation(src, dest, t2))
  {
    if Blend(src, dest, t1) == Blend(src, dest, t2) {
      MixCancels(src.c.re, dest.c.re, t1, t2);
      MixCancels(src.c.im, dest.c.im, t1, t2);
      MixCancels(src.pz0.c0, dest.pz0.c0, t1, t2);
      MixCancels(src.pz0.c1, dest.pz0.c1, t1, t2);
      MixCancels(src.pzn.c0, dest.pzn.c0, t1, t2);
      MixCancels(src.pzn.c1, dest.pzn.c1, t1, t2);
      assert false;
    }
  }

  /** The Julia family is closed under morphing: blending two Julia sets
      gives the Julia set of the blended constant. */
  lemma JuliaBlendIsJulia(c1: Complex, c2: Complex, t: real)
    ensures GetFractal(Animation(Julia(c1), Julia(c2), t))
         == Julia(Complex(Mix(c1.re, c2.re, t), Mix(c1.im, c2.im, t)))
  {
  }

  /** Halfway from the Mandelbrot set to the Julia set of -0.6+0.6i. */
  lemma MandelbrotToJuliaMidpoint()
    ensures GetFractal(Animation(Mandelbrot(), Julia(Complex(-0.6, 0.6)), 0.5))
         == Fractal(Complex(-0.3, 0.3), Coeffs(0.0, 0.5), Coeffs(1.0, 0.0))
  {
  }
}

=== FILE: fractalshader.dfy ===
/**
 The fragment stage (graphics/fractal.go): colouring and iteration
 parameters pushed as uniforms.
 */
module FractalShader {
  import opened Gl
  import opened ShaderSource

  const Zero2: Vec2 := [0.0, 0.0]
  const Zero3: Vec3 := [0.0, 0.0, 0.0]

  /** `[6]mgl32.Vec3`: six colour stops. */
  type Colorwheel = s: seq<Vec3> | |s| == 6
    witness [Zero3, Zero3, Zero3, Zero3, Zero3, Zero3]

  /** `[3]mgl32.Vec2`: three complex coefficients. */
  type Polynomial = s: seq<Vec2> | |s| == 3
    witness [Zero2, Zero2, Zero2]

  datatype Fractal = Fractal(
    colorwheel: Colorwheel,
    polynomial: Polynomial,
    divergenceBound: real,
    maxIter: Int32)

  const SourcePath := "graphics/shaders/fractal.frag"

  /** `GetSource`: the shader text, or a panic when the file cannot be read. */
  function GetSource(f: Fractal, files: Files): (r: Outcome<string>)
    ensures r.Ok? <==> SourcePath in files
    ensures !r.Ok? ==> r.Abort?
    ensures r.Ok? ==> r.value == files[SourcePath] + "\0"
  {
    var s := ShaderSourceFromPath(files, SourcePath);
    if s.failed then Abort(SourcePath) else Ok(s.text)
  }

  function GetUniformNames(f: Fractal): seq<string> {
    ["colorwheel", "polynomial", "divergence_bound", "max_iter"]
  }

  /** `SetUniforms`: one write per declared name, in declared order, at the
      location the table gives that name; the array uploads carry as many
      vectors as the arrays hold. The receiver is a value and is not changed. */
  function SetUniforms(f: Fractal, u: map<string, int>): (r: seq<Call>)
    ensures Pushes(r)
    ensures |r| == |GetUniformNames(f)|
    ensures forall i :: 0 <= i < |r| ==> r[i].location == Lookup(u, GetUniformNames(f)[i])
    ensures forall i :: 0 <= i < |r| ==> r[i].WellSized()
    ensures r[0].Uniform3fv? && r[0].count == |f.colorwheel|
    ensures r[1].Uniform2fv? && r[1].count == |f.polynomial|
  {
    [Uniform3fv(Lookup(u, "colorwheel"), 6, Join(f.colorwheel)),
     Uniform2fv(Lookup(u, "polynomial"), 3, Join(f.polynomial)),
     Uniform1f(Lookup(u, "divergence_bound"), f.divergenceBound),
     Uniform1i(Lookup(u, "max_iter"), f.maxIter)]
  }

  /** The pushes depend on the table only through the declared names. */
  lemma SetUniformsReadsOnlyOwnNames(f: Fractal, u1: map<string, int>, u2: map<string, int>)
    requires forall n :: n in GetUniformNames(f) ==> Lookup(u1, n) == Lookup(u2, n)
    ensures SetUniforms(f, u1) == SetUniforms(f, u2)
  {
    assert "colorwheel" in GetUniformNames(f);
    assert "polynomial" in GetUniformNames(f);
    assert "divergence_bound" in GetUniformNames(f);
    assert "max_iter" in GetUniformNames(f);
  }

  /** When the four names sit at distinct live locations, the program in use
      ends up holding the colour wheel, the polynomial, the divergence bound
      and the iteration limit there. */
  lemma SetUniformsDelivers(f: Fractal, u: map<string, int>, ctx: Context)
    requires Lookup(u, "colorwheel") != -1 && Lookup(u, "polynomial") != -1
    requires Lookup(u, "divergence_bound") != -1 && Lookup(u, "max_iter") != -1
    requires Lookup(u, "colorwheel") != Lookup(u, "polynomial")
    requires Lookup(u, "colorwheel") != Lookup(u, "divergence_bound")
    requires Lookup(u, "colorwheel") != Lookup(u, "max_iter")
    requires Lookup(u, "polynomial") != Lookup(u, "divergence_bound")
    requires Lookup(u, "polynomial") != Lookup(u, "max_iter")
    requires Lookup(u, "divergence_bound") != Lookup(u, "max_iter")
    ensures var g := Run(ctx, SetUniforms(f, u));
      && (ctx.program, Lookup(u, "colorwheel")) in g.uniforms
      && (ctx.program, Lookup(u, "polynomial")) in g.uniforms
      && (ctx.program, Lookup(u, "divergence_bound")) in g.uniforms
      && (ctx.program, Lookup(u, "max_iter")) in g.uniforms
      && g.uniforms[(ctx.program, Lookup(u, "colorwheel"))] == Floats(Join(f.colorwheel))
      && g.uniforms[(ctx.program, Lookup(u, "polynomial"))] == Floats(Join(f.polynomial))
      && g.uniforms[(ctx.program, Lookup(u, "divergence_bound"))] == Floats([f.divergenceBound])
      && g.uniforms[(ctx.program, Lookup(u, "max_iter"))] == Ints([f.maxIter])
  {
    var calls := SetUniforms(f, u);
    RunStoresLastWrite(ctx, calls, 0);
    RunStoresLastWrite(ctx, calls, 1);
    RunStoresLastWrite(ctx, calls, 2);
    RunStoresLastWrite(ctx, calls, 3);
  }
}

=== FILE: gl.dfy ===
/**
 An abstract OpenGL/GLFW context for the graphics package.

 Nothing of the real driver is modelled beyond what the package relies on:
 object names come from a counter, the context remembers its bindings
 (vertex array, array buffer, the element buffer of each vertex array, the
 program in use), the live shader objects and the value last written to each
 uniform location of each program, and every call is appended to a log.
 What the driver decides on its own (whether a shader compiles or a program
 links, and where a uniform lives) is asked of a `Driver`.
 */
module Gl {

  type Int32 = x: int | -0x8000_0000 <= x < 0x8000_0000
  type Uint32 = n: nat | n < 0x1_0000_0000

  /** `mgl32.Vec2` and `mgl32.Vec3`. */
  type Vec2 = v: seq<real> | |v| == 2 witness [0.0, 0.0]
  type Vec3 = v: seq<real> | |v| == 3 witness [0.0, 0.0, 0.0]

  /** Go's conversion `int32(x)`: two's-complement wrap-around. */
  function WrapInt32(x: int): (r: Int32)
    ensures -0x8000_0000 <= x < 0x8000_0000 ==> r == x
    ensures (x - r) % 0x1_0000_0000 == 0
  {
    (x + 0x8000_0000) % 0x1_0000_0000 - 0x8000_0000
  }

  /** The contiguous memory behind a slice of small float arrays. */
  function Join(vs: seq<seq<real>>): (r: seq<real>)
    ensures (forall i :: 0 <= i < |vs| ==> |vs[i]| == 3) ==>
      && |r| == 3 * |vs|
      && forall k, j :: 0 <= k < |vs| && 0 <= j < 3 ==> r[3 * k + j] == vs[k][j]
    ensures (forall i :: 0 <= i < |vs| ==> |vs[i]| == 2) ==>
      && |r| == 2 * |vs|
      && forall k, j :: 0 <= k < |vs| && 0 <= j < 2 ==> r[2 * k + j] == vs[k][j]
  {
    if vs == [] then []
    else
      var rest := Join(vs[1..]);
      assert forall k :: 1 <= k < |vs| ==> vs[1..][k - 1] == vs[k];
      vs[0] + rest
  }

  datatype Stage = VertexStage | FragmentStage

  datatype Target = ArrayBuffer | ElementArrayBuffer

  /** What a uniform call stores at its location. */
  datatype Value = Floats(fs: seq<real>) | Ints(ns: seq<int>)

  datatype Call =
    | CreateShader(stage: Stage, shader: nat)
    | ShaderSource(shader: nat, source: string)
    | CompileShader(shader: nat)
    | GetCompileStatus(shader: nat)
    | GetShaderLogLength(shader: nat)
    | GetShaderInfoLog(shader: nat)
    | CreateProgram(program: nat)
    | AttachShader(program: nat, shader: nat)
    | LinkProgram(program: nat)
    | GetLinkStatus(program: nat)
    | GetProgramLogLength(program: nat)
    | GetProgramInfoLog(program: nat)
    | DeleteShader(shader: nat)
    | GetUniformLocation(program: nat, name: string)
    | MakeContextCurrent(window: nat)
    | UseProgram(program: nat)
    | Uniform1f(location: int, x: real)
    | Uniform2f(location: int, x: real, y: real)
    | Uniform1i(location: int, n: int)
    | Uniform2fv(location: int, count: int, data: seq<real>)
    | Uniform3fv(location: int, count: int, data: seq<real>)
    | GenBuffer(buffer: nat)
    | BindBuffer(target: Target, buffer: nat)
    | BufferFloats(target: Target, size: int, floats: seq<real>)
    | BufferUints(target: Target, size: int, uints: seq<nat>)
    | GenVertexArray(vao: nat)
    | BindVertexArray(vao: nat)
    | VertexAttribPointer(index: nat, components: nat, stride: nat)
    | EnableVertexAttribArray(index: nat)
    | DrawTriangles(indices: int)
    | ClearColor(r: real, g: real, b: real, a: real)
    | ClearBuffers
  {
    /** A `glUniform*` call. */
    predicate IsPush() {
      Uniform1f? || Uniform2f? || Uniform1i? || Uniform2fv? || Uniform3fv?
    }

    /** A vector upload whose element count matches its data: `count`
        vectors of 2 or 3 components. */
    predicate WellSized() {
      match this
      case Uniform2fv(_, count, data) => |data| == 2 * count
      case Uniform3fv(_, count, data) => |data| == 3 * count
      case _ => true
    }

    function Written(): Value
      requires IsPush()
    {
      match this
      case Uniform1f(_, x) => Floats([x])
      case Uniform2f(_, x, y) => Floats([x, y])
      case Uniform1i(_, n) => Ints([n])
      case Uniform2fv(_, _, data) => Floats(data)
      case Uniform3fv(_, _, data) => Floats(data)
    }
  }

  predicate Pushes(calls: seq<Call>) {
    forall i :: 0 <= i < |calls| ==> calls[i].IsPush()
  }

  datatype Context = Context(
    lastName: nat,
    shaders: set<nat>,
    vertexArray: nat,
    arrayBuffer: nat,
    elementBuffers: map<nat, nat>,
    program: nat,
    uniforms: map<(nat, int), Value>,
    log: seq<Call>)

  /** The context as the driver hands it over: nothing created, nothing bound. */
  function Fresh(): Context {
    Context(0, {}, 0, 0, map[], 0, map[], [])
  }

  /** The name the next creating call receives. */
  function NextName(ctx: Context): nat {
    ctx.lastName + 1
  }

  function Max(a: nat, b: nat): nat {
    if a < b then b else a
  }

  /** The effect of one call. Uniform writes go to the program in use;
      location -1 is silently ignored, as the GL does. */
  function Step(ctx: Context, c: Call): Context {
    Apply(ctx, c).(log := ctx.log + [c])
  }

  /** The effect of one call on everything but the log. */
  function Apply(g: Context, c: Call): Context {
    match c
    case CreateShader(_, s) => g.(lastName := Max(g.lastName, s), shaders := g.shaders + {s})
    case DeleteShader(s) => g.(shaders := g.shaders - {s})
    case CreateProgram(p) => g.(lastName := Max(g.lastName, p))
    case GenBuffer(b) => g.(lastName := Max(g.lastName, b))
    case GenVertexArray(v) => g.(lastName := Max(g.lastName, v))
    case BindBuffer(ArrayBuffer, b) => g.(arrayBuffer := b)
    case BindBuffer(ElementArrayBuffer, b) =>
      g.(elementBuffers := g.elementBuffers[g.vertexArray := b])
    case BindVertexArray(v) => g.(vertexArray := v)
    case UseProgram(p) => g.(program := p)
    case Uniform1f(l, _) => Store(g, l, c.Written())
    case Uniform2f(l, _, _) => Store(g, l, c.Written())
    case Uniform1i(l, _) => Store(g, l, c.Written())
    case Uniform2fv(l, _, _) => Store(g, l, c.Written())
    case Uniform3fv(l, _, _) => Store(g, l, c.Written())
    case _ => g
  }

  /** A uniform write to the program in use; location -1 is ignored. */
  function Store(ctx: Context, location: int, v: Value): Context {
    if location == -1 then ctx
    else ctx.(uniforms := ctx.uniforms[(ctx.program, location) := v])
  }

  /** The effect of a sequence of calls, first to last. */
  function Run(ctx: Context, calls: seq<Call>): (r: Context)
    ensures r.log == ctx.log + calls
    ensures Pushes(calls) ==> r == ctx.(uniforms := r.uniforms, log := r.log)
    decreases |calls|
  {
    if calls == [] then ctx
    else
      assert Pushes(calls) ==> Pushes(calls[1..]) by {
        if Pushes(calls) {
          forall i | 0 <= i < |calls[1..]| ensures calls[1..][i].IsPush() {
            assert calls[1..][i] == calls[i + 1];
          }
        }
      }
      assert ctx.log + calls == ctx.log + [calls[0]] + calls[1..];
      Run(Step(ctx, calls[0]), calls[1..])
  }

  lemma RunAppend(ctx: Context, a: seq<Call>, b: seq<Call>)
    ensures Run(ctx, a + b) == Run(Run(ctx, a), b)
    decreases |a|
  {
    if a != [] {
      assert (a + b)[1..] == a[1..] + b;
      RunAppend(Step(ctx, a[0]), a[1..], b);
    } else {
      assert a + b == b;
    }
  }

  /** Uniform writes that avoid a location leave its value alone. */
  lemma {:induction false} RunKeepsOtherLocations(ctx: Context, calls: seq<Call>, loc: int)
    requires Pushes(calls)
    requires forall j :: 0 <= j < |calls| ==> calls[j].location != loc
    ensures (ctx.program, loc) in ctx.uniforms ==>
      (ctx.program, loc) in Run(ctx, calls).uniforms &&
      Run(ctx, calls).uniforms[(ctx.program, loc)] == ctx.uniforms[(ctx.program, loc)]
    decreases |calls|
  {
    if calls != [] {
      var next := Step(ctx, calls[0]);
      assert next.program == ctx.program;
      assert (ctx.program, loc) in ctx.uniforms ==>
        (ctx.program, loc) in next.uniforms &&
        next.uniforms[(ctx.program, loc)] == ctx.uniforms[(ctx.program, loc)];
      assert Pushes(calls[1..]) by {
        forall i | 0 <= i < |calls[1..]| ensures calls[1..][i].IsPush() {
          assert calls[1..][i] == calls[i + 1];
        }
      }
      forall j | 0 <= j < |calls[1..]| ensures calls[1..][j].location != loc {
        assert calls[1..][j] == calls[j + 1];
      }
      RunKeepsOtherLocations(next, calls[1..], loc);
    }
  }

  /** After a run of uniform writes, a location holds what the last write to
      it stored, for the program that was in use. */
  lemma {:induction false} RunStoresLastWrite(ctx: Context, calls: seq<Call>, i: nat)
    requires Pushes(calls)
    requires i < |calls|
    requires calls[i].location != -1
    requires forall j :: i < j < |calls| ==> calls[j].location != calls[i].location
    ensures (ctx.program, calls[i].location) in Run(ctx, calls).uniforms
    ensures Run(ctx, calls).uniforms[(ctx.program, calls[i].location)] == calls[i].Written()
    decreases |calls|
  {
    var next := Step(ctx, calls[0]);
    assert next.program == ctx.program;
    assert Pushes(calls[1..]) by {
      forall k | 0 <= k < |calls[1..]| ensures calls[1..][k].IsPush() {
        assert calls[1..][k] == calls[k + 1];
      }
    }
    if i == 0 {
      forall j | 0 <= j < |calls[1..]| ensures calls[1..][j].location != calls[0].location {
        assert calls[1..][j] == calls[j + 1];
      }
      RunKeepsOtherLocations(next, calls[1..], calls[0].location);
    } else {
      assert calls[1..][i - 1] == calls[i];
      forall j | i - 1 < j < |calls[1..]| ensures calls[1..][j].location != calls[i].location {
        assert calls[1..][j] == calls[j + 1];
      }
      RunStoresLastWrite(next, calls[1..], i - 1);
    }
  }

  /** The answers of the driver: whether a stage compiles, whether a pair of
      stages links (with the info log on failure), and where a named uniform
      of a linked program lives (-1 when it was optimised out). */
  datatype Verdict = Accepted | Rejected(infoLog: string)

  datatype Driver = Driver(
    compile: (Stage, string) -> Verdict,
    link: (string, string) -> Verdict,
    location: (nat, string) -> Int32)

  /** How a Go call ends: a value, a returned `error`, or a panic /
      `log.Fatal` that ends the process. */
  datatype Outcome<+T> = Ok(value: T) | Error(msg: string) | Abort(reason: string)

  /** An outcome together with the context the calls left behind. */
  datatype Issued<+T> = Issued(out: Outcome<T>, gl: Context)

  /** Go's `u[name]` on a `map[string]int32`: a missing name reads as 0,
      which is a real location, not GL's ignored -1. */
  function Lookup(u: map<string, int>, name: string): (r: int)
    ensures name in u ==> r == u[name]
    ensures name !in u ==> r == 0
  {
    if name in u then u[name] else 0
  }
}

=== FILE: mainloop.dfy ===
/**
 The program's start-up and frame loop (main.go): the initial state, the
 set-up of the aspect ratio, the uniform table and the canvas, and one
 frame of the loop. Window events arrive as a sequence; `Replay` runs the
 callbacks over it and shows that the invariant of the state holds from
 the first frame on.
 */
module MainLoop {
  import opened Gl
  import opened Render
  import opened Fractals
  import opened AppState
  import Control
  import Config
  import Viewer

  /** The state `main` builds: the view centred on 0 at scale 2 showing
      the Mandelbrot set, no scroll focus at full sensitivity, and an
      animation from the Mandelbrot set to the Julia set of -0.6+0.6i that
      has not started. The aspect ratio and the uniforms are Go zero values
      until the window exists. It has the invariant, its first frame shows
      the Mandelbrot set, and a full morph reaches the Julia set. */
  function InitialState(): (r: State)
    ensures Valid(r)
    ensures GetFractal(r.animation) == r.viewer.fractal == Mandelbrot()
    ensures GetFractal(r.animation.(time := 1.0)) == Julia(Complex(-0.6, 0.6))
  {
    State(Animation(Mandelbrot(), Julia(Complex(-0.6, 0.6)), 0.0),
          ViewerState(0.0, 0.0, 2.0, Mandelbrot(), 0.0, NoUniforms()),
          ControlState(0.0, 0.0, None, 1.0))
  }

  datatype Ratio = Ratio(value: real) | Undefined

  /** `float32(width) / float32(height)`; a zero height has no ratio. */
  function AspectRatio(width: nat, height: nat): (r: Ratio)
    ensures r.Ratio? <==> height > 0
    ensures r.Ratio? ==> r.value * (height as real) == width as real
    ensures r.Ratio? && width > 0 ==> r.value > 0.0
  {
    if height == 0 then Undefined else Ratio((width as real) / (height as real))
  }

  datatype Started = Started(state: State, canvas: VAO, gl: Context)

  /** The set-up between the callbacks and the loop: the aspect ratio of
      the framebuffer, the uniform locations of the program, and the canvas
      triangle. The program itself is a parameter. */
  method Start(s: State, ctx: Context, width: nat, height: nat, program: nat,
               location: (nat, string) -> Int32) returns (r: Started)
    requires height > 0
    ensures r.state.animation == s.animation && r.state.control == s.control
    ensures r.state.viewer == s.viewer.(aspectRatio := r.state.viewer.aspectRatio,
                                        uniforms := r.state.viewer.uniforms)
    ensures r.state.viewer.aspectRatio * (height as real) == width as real
    ensures forall i :: 0 <= i < |Viewer.UniformNames| ==>
      Viewer.Locations(r.state.viewer.uniforms)[i] == location(program, Viewer.UniformNames[i])
    ensures r.canvas.count == 1 && r.gl.vertexArray == 0
    ensures Valid(s) ==> Valid(r.state)
  {
    var aspect := AspectRatio(width, height).value;
    var located := Viewer.GetUniforms(ctx, program, location);
    var canvas := Viewer.InitCanvas(located.gl);
    r := Started(s.(viewer := s.viewer.(aspectRatio := aspect, uniforms := located.uniforms)),
                 canvas.out.value, canvas.gl);
  }

  datatype Shown = Shown(state: State, gl: Context)

  /** `gl.ClearColor(0, 0, 0, 1)` and `gl.Clear`: only the log changes. */
  function Clear(ctx: Context): (r: Context)
    ensures r == ctx.(log := ctx.log + [ClearColor(0.0, 0.0, 0.0, 1.0), ClearBuffers])
  {
    Step(Step(ctx, ClearColor(0.0, 0.0, 0.0, 1.0)), ClearBuffers)
  }

  /** The GL side of a frame: push the view, clear, draw the canvas. */
  function Paint(ctx: Context, v: ViewerState, canvas: VAO): (r: Context)
    ensures r.log == ctx.log + Viewer.SetUniformCalls(v)
                     + [ClearColor(0.0, 0.0, 0.0, 1.0), ClearBuffers] + DrawCalls(canvas)
    ensures r.uniforms == Run(ctx, Viewer.SetUniformCalls(v)).uniforms
    ensures r.vertexArray == 0
  {
    DrawVao(Clear(Run(ctx, Viewer.SetUniformCalls(v))), canvas)
  }

  /** One pass of the loop: recompute the fractal from the animation,
      push the uniforms, clear the screen to opaque black and draw the
      canvas. */
  function Frame(s: State, ctx: Context, canvas: VAO): (r: Shown)
    ensures r.state == s.(viewer := r.state.viewer)
    ensures r.state.viewer == s.viewer.(fractal := GetFractal(s.animation))
    ensures r.gl == Paint(ctx, r.state.viewer, canvas)
    ensures Valid(s) ==> Valid(r.state)
  {
    var next := s.(viewer := s.viewer.(fractal := GetFractal(s.animation)));
    Shown(next, Paint(ctx, next.viewer, canvas))
  }

  /** After a frame, the fractal program reads the fractal of the
      animation at its current weight, and the view, provided the seven
      locations are separate. */
  lemma FrameDeliversFractal(s: State, ctx: Context, canvas: VAO)
    requires Viewer.Separate(s.viewer.uniforms)
    ensures Viewer.Read(Frame(s, ctx, canvas).gl.uniforms, ctx.program, s.viewer.uniforms)
         == Viewer.Reading(s.viewer.aspectRatio, GetFractal(s.animation),
                           s.viewer.offsetX, s.viewer.offsetY, s.viewer.scale)
  {
    Viewer.SetUniformsDelivers(Frame(s, ctx, canvas).state.viewer, ctx);
  }

  /** Redrawing without input changes nothing in the state. */
  lemma FrameStateIdempotent(s: State, ctx: Context, g: Context, canvas: VAO)
    ensures Frame(Frame(s, ctx, canvas).state, g, canvas).state == Frame(s, ctx, canvas).state
  {
  }

  /** What the window reports to the callbacks, already in model terms
      (the cursor normalised, scroll offsets whole notches). */
  datatype Event =
    | CursorMoved(x: real, y: real, left: bool, right: bool)
    | WheelTurned(xoff: int, yoff: int)
    | KeyChanged(key: Control.Key, action: Control.Action, mods: int)
    | FileLoaded(dialog: Config.DialogAnswer, openErr: Config.Maybe<string>,
                 decoded: Config.Decoded, closeErr: Config.Maybe<string>)
    | Redrawn

  /** An event that cannot break the invariant: every event except a load
      whose file sets a scale that is not positive. */
  predicate Sane(e: Event) {
    e.FileLoaded? && e.decoded.Decoded? && e.decoded.snapshot.scale.Given? ==>
      e.decoded.snapshot.scale.value > 0.0
  }

  /** The state change of one event; only a fatal load ends the program. */
  function Handle(s: State, e: Event): (r: Config.LoadOutcome)
    ensures !e.FileLoaded? ==> r.Continue?
    ensures Valid(s) && Sane(e) && r.Continue? ==> Valid(r.next)
  {
    match e
    case CursorMoved(x, y, left, right) =>
      var next := Control.CursorPos(s, x, y, left, right);
      assert Valid(s) ==> Valid(next) by {
        if Valid(s) { Control.CursorPosPreservesValid(s, x, y, left, right); }
      }
      Config.Continue(next)
    case WheelTurned(xoff, yoff) =>
      var next := Control.Scroll(s, xoff, yoff);
      assert Valid(s) ==> Valid(next) by {
        if Valid(s) { Control.ScrollPreservesValid(s, xoff, yoff); }
      }
      Config.Continue(next)
    case KeyChanged(key, action, mods) =>
      var next := Control.KeyEvent(s, key, action, mods).next;
      assert Valid(s) ==> Valid(next) by {
        if Valid(s) { Control.KeyPreservesValid(s, key, action, mods); }
      }
      Config.Continue(next)
    case FileLoaded(dialog, openErr, decoded, closeErr) =>
      var r := Config.Load(s, dialog, openErr, decoded, closeErr);
      assert Valid(s) && Sane(e) && r.Continue? ==> Valid(r.next) by {
        if Valid(s) && Sane(e) {
          Config.LoadPreservesValid(s, dialog, openErr, decoded, closeErr);
        }
      }
      r
    case Redrawn =>
      Config.Continue(s.(viewer := s.viewer.(fractal := GetFractal(s.animation))))
  }

  /** The events in order, stopping at a fatal load. Any state and any
      events can be replayed; from a valid state, sane events only ever lead
      to valid states. */
  function Replay(s: State, events: seq<Event>): (r: Config.LoadOutcome)
    ensures Valid(s) && (forall i :: 0 <= i < |events| ==> Sane(events[i])) && r.Continue? ==> Valid(r.next)
    ensures (forall i :: 0 <= i < |events| ==> !events[i].FileLoaded?) ==> r.Continue?
    decreases |events|
  {
    if events == [] then Config.Continue(s)
    else
      match Handle(s, events[0])
      case Fatal(reason) => Config.Fatal(reason)
      case Continue(next) =>
        assert forall i :: 0 <= i < |events[1..]| ==> events[1..][i] == events[i + 1];
        Replay(next, events[1..])
  }

  /** Any run of the program without a load keeps the invariant. */
  lemma SessionValid(events: seq<Event>)
    requires forall i :: 0 <= i < |events| ==> !events[i].FileLoaded?
    ensures Replay(InitialState(), events).Continue?
    ensures Valid(Replay(InitialState(), events).next)
  {
  }

  /** The older scroll rule of viewer.go breaks the invariant from the very
      start: in Scale focus, one notch up at the initial sensitivity 1
      collapses the view to scale 0, and the notch back down diverges. */
  lemma VariantScrollCollapsesInitialView()
    ensures var s := InitialState().(control := InitialState().control.(focus := Scale));
      && Viewer.Scroll(s, 0, 1).Scrolled?
      && Viewer.Scroll(s, 0, 1).next.viewer.scale == 0.0
      && !Valid(Viewer.Scroll(s, 0, 1).next)
      && Viewer.Scroll(Viewer.Scroll(s, 0, 1).next, 0, -1) == Viewer.ScaleDiverges
  {
    var s := InitialState().(control := InitialState().control.(focus := Scale));
    Control.TuneStill(s);
    Viewer.WheelCollapses(s, 1);
    var next := Viewer.Wheel(s, 1).next;
    assert next.control == s.control;
    Control.TuneStill(next);
  }

  /** The current controller does not have the flaw: from the same state
      the same notch keeps the view valid and can be undone. */
  lemma ScrollKeepsInitialView()
    ensures var s := InitialState().(control := InitialState().control.(focus := Scale));
      && Valid(Control.Scroll(s, 0, 1))
      && Control.Scroll(Control.Scroll(s, 0, 1), 0, -1).viewer == s.viewer
  {
    var s := InitialState().(control := InitialState().control.(focus := Scale));
    Control.ScrollPreservesValid(s, 0, 1);
    Control.ScrollZoomRoundTrip(s, 1);
  }
}

=== FILE: meshes.dfy ===
/**
 Meshes (graphics/mesh.go): an ordered list of vertices and an ordered list
 of triangles over them, uploaded once into a vertex array.
 */
module Meshes {
  import opened Gl
  import opened Render

  datatype Mesh = Mesh(vertices: seq<Vec3>, faces: seq<Surface>)

  /** Every index of every face names a vertex of the mesh. */
  predicate Valid(m: Mesh) {
    forall k :: 0 <= k < |m.faces| ==>
      m.faces[k].i0 < |m.vertices| && m.faces[k].i1 < |m.vertices| && m.faces[k].i2 < |m.vertices|
  }

  /** `Mesh.Load`: the vertex buffer from the vertices, then the element
      buffer from the faces, then the vertex array over both. The mesh
      itself is a value and is left as it was. Neither slice may be empty:
      `constructVBO` and `constructEBO` index element 0. Index validity is
      not checked. */
  method Load(ctx: Context, m: Mesh) returns (r: Issued<VAO>)
    ensures r.out.Ok? <==> |m.vertices| > 0 && |m.faces| > 0
    ensures !r.out.Ok? ==> r.out.Abort?
    ensures r.out.Ok? && |m.faces| < 0x8000_0000 ==> r.out.value.count == |m.faces|
    ensures r.out.Ok? ==>
      var first := NextName(ctx);
      r.gl.log == ctx.log + VboCalls(first, m.vertices) + EboCalls(first + 1, m.faces)
                  + VaoCalls(first + 2, VBO(first), EBO(first + 1, r.out.value.count))
    ensures r.out.Ok? ==> r.out.value.name == NextName(ctx) + 2 == r.gl.lastName
    ensures r.out.Ok? ==>
      r.out.value.name in r.gl.elementBuffers && r.gl.elementBuffers[r.out.value.name] == NextName(ctx) + 1
    ensures r.out.Ok? ==> r.gl.vertexArray == 0
    ensures r.gl.shaders == ctx.shaders && r.gl.program == ctx.program && r.gl.uniforms == ctx.uniforms
    ensures r.out.Ok? ==>
      var first := NextName(ctx);
      r.gl == ctx.(lastName := first + 2, vertexArray := 0, arrayBuffer := first,
                   elementBuffers := ctx.elementBuffers[ctx.vertexArray := first + 1][first + 2 := first + 1],
                   log := r.gl.log)
  {
    var vbo := ConstructVBO(ctx, m.vertices);
    if !vbo.out.Ok? {
      return Issued(Abort(vbo.out.reason), vbo.gl);
    }
    var ebo := ConstructEBO(vbo.gl, m.faces);
    if !ebo.out.Ok? {
      return Issued(Abort(ebo.out.reason), ebo.gl);
    }
    r := ConstructVAO(ebo.gl, vbo.out.value, ebo.out.value);
  }
}

=== FILE: program.dfy ===
/**
 Shader programs (graphics/program.go): compile a vertex and a fragment
 stage, link them, resolve the uniform names both stages declare, and draw
 by pushing both stages' uniforms before the vertex stage draws.
 */
module ShaderProgram {
  import opened Gl
  import opened Render
  import opened ShaderSource
  import C = CanvasShader
  import F = FractalShader

  /** The renderables a program can hold. Only the canvas can draw, so only
      the canvas can be the vertex stage; either can be the fragment stage. */
  datatype Shader = CanvasStage(canvas: C.Canvas) | FractalStage(fractal: F.Fractal)

  function SourceOf(s: Shader, files: Files): (r: Outcome<string>)
    ensures !r.Ok? ==> r.Abort?
  {
    match s
    case CanvasStage(c) => C.GetSource(c, files)
    case FractalStage(f) => F.GetSource(f, files)
  }

  function NamesOf(s: Shader): seq<string> {
    match s
    case CanvasStage(c) => C.GetUniformNames(c)
    case FractalStage(f) => F.GetUniformNames(f)
  }

  function PushesOf(s: Shader, u: map<string, int>): (r: seq<Call>)
    ensures Pushes(r)
  {
    match s
    case CanvasStage(c) => C.SetUniforms(c, u)
    case FractalStage(f) => F.SetUniforms(f, u)
  }

  datatype Program = Program(
    name: nat,
    uniforms: map<string, int>,
    vertex: C.Canvas,
    fragment: Shader,
    window: nat)

  const CompilePrefix := "failed to compile "
  const LinkPrefix := "failed to link program: "

  function CompileCalls(shader: nat, stage: Stage, source: string): seq<Call> {
    [CreateShader(stage, shader), ShaderSource(shader, source),
     CompileShader(shader), GetCompileStatus(shader)]
  }

  function ShaderLogCalls(shader: nat): seq<Call> {
    [GetShaderLogLength(shader), GetShaderInfoLog(shader)]
  }

  function LinkCalls(program: nat, vertex: nat, fragment: nat): seq<Call> {
    [CreateProgram(program), AttachShader(program, vertex), AttachShader(program, fragment),
     LinkProgram(program), GetLinkStatus(program)]
  }

  function ProgramLogCalls(program: nat): seq<Call> {
    [GetProgramLogLength(program), GetProgramInfoLog(program)]
  }

  function LocationQueries(program: nat, names: seq<string>): (r: seq<Call>)
    ensures forall i :: 0 <= i < |r| ==> r[i].GetUniformLocation?
  {
    if names == [] then []
    else [GetUniformLocation(program, names[0])] + LocationQueries(program, names[1..])
  }

  /** Create a shader object and hand it its source text. */
  function Submit(ctx: Context, shader: nat, stage: Stage, source: string): (r: Context)
    ensures r == ctx.(lastName := Max(ctx.lastName, shader), shaders := ctx.shaders + {shader},
                      log := ctx.log + [CreateShader(stage, shader), ShaderSource(shader, source)])
  {
    Step(Step(ctx, CreateShader(stage, shader)), ShaderSource(shader, source))
  }

  /** A call that only queries the driver: the context changes only by
      its log. */
  function Ask(ctx: Context, c: Call): (r: Context)
    requires Apply(ctx, c) == ctx
    ensures r == ctx.(log := ctx.log + [c])
  {
    Step(ctx, c)
  }

  /** Two calls that only query or instruct the driver: the context changes
      only by its log. */
  function Query(ctx: Context, first: Call, second: Call): (r: Context)
    requires Apply(ctx, first) == ctx && Apply(ctx.(log := ctx.log + [first]), second) == ctx.(log := ctx.log + [first])
    ensures r == ctx.(log := ctx.log + [first, second])
  {
    Step(Step(ctx, first), second)
  }

  /** `compileShader`. The shader object is created either way and is not
      deleted when compilation fails; the error then names the source and
      carries the info log (the NUL-padded buffer the driver filled in). */
  method Compile(ctx: Context, source: string, stage: Stage, verdict: Verdict) returns (r: Issued<nat>)
    ensures r.out.Ok? <==> verdict.Accepted?
    ensures r.out.Ok? ==> r.out.value == NextName(ctx) && r.out.value != 0
    ensures !r.out.Ok? ==> r.out.Error?
    ensures !r.out.Ok? ==>
      && |r.out.msg| == |CompilePrefix| + |source| + 2 + |verdict.infoLog|
      && r.out.msg[|CompilePrefix|..|CompilePrefix| + |source|] == source
      && r.out.msg[|r.out.msg| - |verdict.infoLog|..] == verdict.infoLog
    ensures r.gl.shaders == ctx.shaders + {NextName(ctx)}
    ensures r.gl.lastName == NextName(ctx)
    ensures r.out.Ok? ==> r.gl.log == ctx.log + CompileCalls(NextName(ctx), stage, source)
    ensures !r.out.Ok? ==>
      r.gl.log == ctx.log + CompileCalls(NextName(ctx), stage, source) + ShaderLogCalls(NextName(ctx))
  {
    var shader := NextName(ctx);
    var compiled := Query(Submit(ctx, shader, stage, source), CompileShader(shader), GetCompileStatus(shader));
    if verdict.Accepted? {
      r := Issued(Ok(shader), compiled);
    } else {
      var logged := Query(compiled, GetShaderLogLength(shader), GetShaderInfoLog(shader));
      r := Issued(Error(CompilePrefix + source + ": " + verdict.infoLog), logged);
    }
  }

  datatype Resolved = Resolved(table: map<string, int>, gl: Context)

  /** One `for _, name := range names` loop of `ProgramNew`: every name is
      looked up and written into the table, later writes winning. */
  function ResolveUniforms(ctx: Context, program: nat, names: seq<string>,
                           table: map<string, int>, location: (nat, string) -> Int32): (r: Resolved)
    ensures forall n :: n in r.table <==> n in table || n in names
    ensures forall n :: n in names ==> r.table[n] == location(program, n)
    ensures forall n :: n in table && n !in names ==> r.table[n] == table[n]
    ensures r.gl == ctx.(log := ctx.log + LocationQueries(program, names))
    decreases |names|
  {
    if names == [] then Resolved(table, ctx)
    else
      var rest := ResolveUniforms(Ask(ctx, GetUniformLocation(program, names[0])), program, names[1..],
                                  table[names[0] := location(program, names[0])], location);
      assert forall n :: n in names ==> n == names[0] || n in names[1..];
      assert ctx.log + LocationQueries(program, names)
          == ctx.log + [GetUniformLocation(program, names[0])] + LocationQueries(program, names[1..]);
      rest
  }

  /** Create a program, attach both shaders and link. */
  function Link(ctx: Context, program: nat, vs: nat, fs: nat): (r: Context)
    ensures r == ctx.(lastName := Max(ctx.lastName, program), log := ctx.log + LinkCalls(program, vs, fs))
  {
    var created := Step(ctx, CreateProgram(program));
    var attached := Query(created, AttachShader(program, vs), AttachShader(program, fs));
    Query(attached, LinkProgram(program), GetLinkStatus(program))
  }

  /** Both shader objects are deleted once the program is linked. */
  function DeleteBoth(ctx: Context, vs: nat, fs: nat): (r: Context)
    ensures r == ctx.(shaders := ctx.shaders - {vs, fs},
                      log := ctx.log + [DeleteShader(vs), DeleteShader(fs)])
  {
    Step(Step(ctx, DeleteShader(vs)), DeleteShader(fs))
  }

  /** The uniform table of a linked program: the vertex stage's names, then
      the fragment stage's. */
  function ResolveBoth(ctx: Context, program: nat, vnames: seq<string>, fnames: seq<string>,
                       location: (nat, string) -> Int32): (r: Resolved)
    ensures forall n :: n in r.table <==> n in vnames || n in fnames
    ensures forall n :: n in r.table ==> r.table[n] == location(program, n)
    ensures r.gl == ctx.(log := ctx.log + LocationQueries(program, vnames) + LocationQueries(program, fnames))
  {
    var rv := ResolveUniforms(ctx, program, vnames, map[], location);
    ResolveUniforms(rv.gl, program, fnames, rv.table, location)
  }

  /** On the table a linked program resolves, `Lookup` never falls back to
      its default 0: every declared name reads as the driver's location. */
  lemma ResolvedLookup(ctx: Context, program: nat, vnames: seq<string>, fnames: seq<string>,
                       location: (nat, string) -> Int32, n: string)
    requires n in vnames || n in fnames
    ensures Lookup(ResolveBoth(ctx, program, vnames, fnames, location).table, n) == location(program, n)
  {
  }

  /** The part of `ProgramNew` after both stages compiled: link, and on
      success delete both shader objects and resolve the uniform names. */
  method LinkAndResolve(ctx: Context, vs: nat, fs: nat, vertex: C.Canvas, fragment: Shader,
                        window: nat, verdict: Verdict, location: (nat, string) -> Int32)
    returns (r: Issued<Program>)
    ensures r.out.Ok? <==> verdict.Accepted?
    ensures !r.out.Ok? ==> r.out == Error(LinkPrefix + verdict.infoLog)
    ensures !r.out.Ok? ==> r.gl.shaders == ctx.shaders
    ensures !r.out.Ok? ==>
      r.gl.log == ctx.log + LinkCalls(NextName(ctx), vs, fs) + ProgramLogCalls(NextName(ctx))
    ensures r.out.Ok? ==> r.gl.shaders == ctx.shaders - {vs, fs}
    ensures r.out.Ok? ==> r.out.value.name == NextName(ctx)
    ensures r.out.Ok? ==>
      forall n :: n in r.out.value.uniforms <==> n in C.GetUniformNames(vertex) || n in NamesOf(fragment)
    ensures r.out.Ok? ==>
      forall n :: n in r.out.value.uniforms ==> r.out.value.uniforms[n] == location(NextName(ctx), n)
    ensures r.out.Ok? ==>
      r.gl.log == ctx.log + LinkCalls(NextName(ctx), vs, fs) + [DeleteShader(vs), DeleteShader(fs)]
                  + LocationQueries(NextName(ctx), C.GetUniformNames(vertex))
                  + LocationQueries(NextName(ctx), NamesOf(fragment))
    ensures r.out.Ok? ==>
      r.out.value.vertex == vertex && r.out.value.fragment == fragment && r.out.value.window == window
  {
    var p := NextName(ctx);
    var linked := Link(ctx, p, vs, fs);
    if verdict.Rejected? {
      r := Issued(Error(LinkPrefix + verdict.infoLog),
                  Query(linked, GetProgramLogLength(p), GetProgramInfoLog(p)));
    } else {
      var resolved := ResolveBoth(DeleteBoth(linked, vs, fs), p, C.GetUniformNames(vertex), NamesOf(fragment), location);
      r := Issued(Ok(Program(p, resolved.table, vertex, fragment, window)), resolved.gl);
    }
  }

  /** `ProgramNew`. The stages are read and compiled in order (vertex, then
      fragment), each failure ending the construction at once: an unreadable
      source panics, a compile or link failure returns an error. */
  method ProgramNew(ctx: Context, vertex: C.Canvas, fragment: Shader, window: nat,
                    files: Files, driver: Driver) returns (r: Issued<Program>)
    // the vertex source cannot be read: nothing reaches the driver
    ensures !C.GetSource(vertex, files).Ok? ==> r.out.Abort? && r.gl == ctx
    // the vertex stage does not compile: its shader object is left behind
    ensures C.GetSource(vertex, files).Ok? && driver.compile(VertexStage, C.GetSource(vertex, files).value).Rejected? ==>
      && r.out.Error?
      && r.gl.shaders == ctx.shaders + {NextName(ctx)}
      && r.gl.log == ctx.log + CompileCalls(NextName(ctx), VertexStage, C.GetSource(vertex, files).value)
                     + ShaderLogCalls(NextName(ctx))
    // once the vertex stage compiled, any failure leaves its shader object
    // behind, and success deletes both shader objects
    ensures C.GetSource(vertex, files).Ok? && driver.compile(VertexStage, C.GetSource(vertex, files).value).Accepted? ==>
      && (r.out.Ok? ==> NextName(ctx) !in r.gl.shaders && NextName(ctx) + 1 !in r.gl.shaders)
      && (!r.out.Ok? ==> NextName(ctx) in r.gl.shaders)
    // the fragment source cannot be read, or the fragment stage does not
    // compile: the vertex shader object is left behind
    ensures && C.GetSource(vertex, files).Ok?
            && driver.compile(VertexStage, C.GetSource(vertex, files).value).Accepted?
            && !SourceOf(fragment, files).Ok? ==>
      r.out.Abort? && r.gl.shaders == ctx.shaders + {NextName(ctx)}
    ensures && C.GetSource(vertex, files).Ok? && SourceOf(fragment, files).Ok?
            && driver.compile(VertexStage, C.GetSource(vertex, files).value).Accepted?
            && driver.compile(FragmentStage, SourceOf(fragment, files).value).Rejected? ==>
      r.out.Error? && r.gl.shaders == ctx.shaders + {NextName(ctx), NextName(ctx) + 1}
    // both stages compile but do not link: both shader objects are left behind
    ensures && C.GetSource(vertex, files).Ok? && SourceOf(fragment, files).Ok?
            && driver.compile(VertexStage, C.GetSource(vertex, files).value).Accepted?
            && driver.compile(FragmentStage, SourceOf(fragment, files).value).Accepted?
            && driver.link(C.GetSource(vertex, files).value, SourceOf(fragment, files).value).Rejected? ==>
      && r.out == Error(LinkPrefix + driver.link(C.GetSource(vertex, files).value, SourceOf(fragment, files).value).infoLog)
      && r.gl.shaders == ctx.shaders + {NextName(ctx), NextName(ctx) + 1}
    // success exactly when both sources are readable, both stages compile
    // and the program links
    ensures r.out.Ok? <==>
      && C.GetSource(vertex, files).Ok? && SourceOf(fragment, files).Ok?
      && driver.compile(VertexStage, C.GetSource(vertex, files).value).Accepted?
      && driver.compile(FragmentStage, SourceOf(fragment, files).value).Accepted?
      && driver.link(C.GetSource(vertex, files).value, SourceOf(fragment, files).value).Accepted?
    ensures r.out.Ok? ==>
      && r.out.value.name == NextName(ctx) + 2
      && r.out.value.vertex == vertex && r.out.value.fragment == fragment && r.out.value.window == window
      && (forall n :: n in r.out.value.uniforms <==> n in C.GetUniformNames(vertex) || n in NamesOf(fragment))
      && (forall n :: n in r.out.value.uniforms ==> r.out.value.uniforms[n] == driver.location(NextName(ctx) + 2, n))
    // on success both shader objects are deleted exactly once, after the
    // link and before the uniform names are looked up
    ensures r.out.Ok? ==>
      r.gl.log == ctx.log
        + CompileCalls(NextName(ctx), VertexStage, C.GetSource(vertex, files).value)
        + CompileCalls(NextName(ctx) + 1, FragmentStage, SourceOf(fragment, files).value)
        + LinkCalls(NextName(ctx) + 2, NextName(ctx), NextName(ctx) + 1)
        + [DeleteShader(NextName(ctx)), DeleteShader(NextName(ctx) + 1)]
        + LocationQueries(NextName(ctx) + 2, C.GetUniformNames(vertex))
        + LocationQueries(NextName(ctx) + 2, NamesOf(fragment))
  {
    var vsrc := C.GetSource(vertex, files);
    if !vsrc.Ok? {
      return Issued(Abort(vsrc.reason), ctx);
    }
    var vs := Compile(ctx, vsrc.value, VertexStage, driver.compile(VertexStage, vsrc.value));
    if !vs.out.Ok? {
      return Issued(Error(vs.out.msg), vs.gl);
    }
    var fsrc := SourceOf(fragment, files);
    if !fsrc.Ok? {
      return Issued(Abort(fsrc.reason), vs.gl);
    }
    var fs := Compile(vs.gl, fsrc.value, FragmentStage, driver.compile(FragmentStage, fsrc.value));
    if !fs.out.Ok? {
      return Issued(Error(fs.out.msg), fs.gl);
    }
    r := LinkAndResolve(fs.gl, vs.out.value, fs.out.value, vertex, fragment, window,
                        driver.link(vsrc.value, fsrc.value), driver.location);
  }

  /** Make the window's context current and use the program. */
  function Activate(ctx: Context, window: nat, program: nat): (r: Context)
    ensures r == ctx.(program := program, log := ctx.log + [MakeContextCurrent(window), UseProgram(program)])
  {
    Step(Step(ctx, MakeContextCurrent(window)), UseProgram(program))
  }

  /** Two runs of uniform writes: only the uniforms and the log change. */
  function PushBoth(ctx: Context, first: seq<Call>, second: seq<Call>): (r: Context)
    requires Pushes(first) && Pushes(second)
    ensures r == ctx.(uniforms := r.uniforms, log := ctx.log + first + second)
  {
    Run(Run(ctx, first), second)
  }

  /** `Program.Draw`: make the window's context current, use the program,
      push the vertex stage's uniforms, then the fragment stage's, and only
      then let the vertex stage draw. */
  function Draw(p: Program, ctx: Context): (r: Context)
    ensures r.log == ctx.log + [MakeContextCurrent(p.window), UseProgram(p.name)]
                     + C.SetUniforms(p.vertex, p.uniforms) + PushesOf(p.fragment, p.uniforms)
                     + DrawCalls(p.vertex.vao)
    ensures r.program == p.name
    ensures r.vertexArray == 0
  {
    var pushed := PushBoth(Activate(ctx, p.window, p.name),
                           C.SetUniforms(p.vertex, p.uniforms), PushesOf(p.fragment, p.uniforms));
    DrawVao(pushed, p.vertex.vao)
  }

  /** After a draw, the program holds the canvas's view transform at the
      canvas's uniform locations, as long as those are distinct, live, and
      not written again by the fragment stage. */
  lemma DrawDeliversViewTransform(p: Program, ctx: Context)
    requires Lookup(p.uniforms, "offset") != -1 && Lookup(p.uniforms, "scale") != -1
    requires Lookup(p.uniforms, "aspect") != -1
    requires Lookup(p.uniforms, "offset") != Lookup(p.uniforms, "scale")
    requires Lookup(p.uniforms, "scale") != Lookup(p.uniforms, "aspect")
    requires Lookup(p.uniforms, "aspect") != Lookup(p.uniforms, "offset")
    requires forall j :: 0 <= j < |PushesOf(p.fragment, p.uniforms)| ==>
      && PushesOf(p.fragment, p.uniforms)[j].location != Lookup(p.uniforms, "offset")
      && PushesOf(p.fragment, p.uniforms)[j].location != Lookup(p.uniforms, "scale")
      && PushesOf(p.fragment, p.uniforms)[j].location != Lookup(p.uniforms, "aspect")
    ensures var g := Draw(p, ctx);
      && (p.name, Lookup(p.uniforms, "offset")) in g.uniforms
      && (p.name, Lookup(p.uniforms, "scale")) in g.uniforms
      && (p.name, Lookup(p.uniforms, "aspect")) in g.uniforms
      && g.uniforms[(p.name, Lookup(p.uniforms, "offset"))] == Floats(p.vertex.offset)
      && g.uniforms[(p.name, Lookup(p.uniforms, "scale"))] == Floats([p.vertex.scale])
      && g.uniforms[(p.name, Lookup(p.uniforms, "aspect"))] == Floats([p.vertex.aspect])
  {
    var active := Activate(ctx, p.window, p.name);
    var vertexPushes := C.SetUniforms(p.vertex, p.uniforms);
    var fragmentPushes := PushesOf(p.fragment, p.uniforms);
    C.SetUniformsDelivers(p.vertex, p.uniforms, active);
    var afterVertex := Run(active, vertexPushes);
    assert afterVertex.program == p.name;
    RunKeepsOtherLocations(afterVertex, fragmentPushes, Lookup(p.uniforms, "offset"));
    RunKeepsOtherLocations(afterVertex, fragmentPushes, Lookup(p.uniforms, "scale"));
    RunKeepsOtherLocations(afterVertex, fragmentPushes, Lookup(p.uniforms, "aspect"));
    assert PushBoth(active, vertexPushes, fragmentPushes) == Run(afterVertex, fragmentPushes);
  }
}

=== FILE: realmath.dfy ===
/**
 Real-number helpers standing in for the Go math calls the viewer makes:
 `math.Pow` with an integer exponent and the `Clamp` of the mathgl packages.
 All float32/float64 quantities of the program are modelled as `real`.
 */
module RealMath {

  /** `math.Pow(b, n)` for an integer exponent `n`; a negative exponent
      divides, so it needs a non-zero base. */
  function Pow(b: real, n: int): (r: real)
    requires b != 0.0 || n >= 0
    ensures b != 0.0 ==> r != 0.0
    ensures b > 0.0 ==> r > 0.0
    ensures b == 0.0 && n > 0 ==> r == 0.0
    decreases if n >= 0 then 2 * n else 1 - 2 * n
  {
    if n == 0 then 1.0
    else if n > 0 then b * Pow(b, n - 1)
    else 1.0 / Pow(b, -n)
  }

  /** `mgl32.Clamp` / `mgl64.Clamp`: `lo` below, `hi` above, `x` otherwise. */
  function Clamp(x: real, lo: real, hi: real): (r: real)
    requires lo <= hi
    ensures lo <= r <= hi
    ensures lo <= x <= hi ==> r == x
  {
    if x < lo then lo else if x > hi then hi else x
  }

  /** Shrinking a value of (0, 1] by a factor in (0, 1) stays strictly
      inside (0, x), so the clamp to [0, 1] leaves it alone. */
  lemma ClampShrunk(x: real, p: real)
    requires 0.0 < x <= 1.0 && 0.0 < p < 1.0
    ensures 0.0 < Clamp(x * p, 0.0, 1.0) < x
  {
    ShrinkBelowOne(p, x);
    PositiveProduct(x, p);
    var y := x * p;
    assert y < x;
    assert 0.0 < y;
    assert Clamp(y, 0.0, 1.0) == y;
  }

  /** Growing a value of [0, 1] by a factor of at least 1 never lowers it,
      even after the clamp to [0, 1]. */
  lemma ClampGrown(x: real, p: real)
    requires 0.0 <= x <= 1.0 && p >= 1.0
    ensures x <= Clamp(x * p, 0.0, 1.0)
  {
    MulMonotone(1.0, p, x);
  }

  /** A non-negative power of a base in (0, 1] never exceeds 1. */
  lemma {:induction false} PowAtMostOne(b: real, n: nat)
    requires 0.0 < b <= 1.0
    ensures Pow(b, n) <= 1.0
  {
    if n > 0 {
      PowAtMostOne(b, n - 1);
      var p, q := Pow(b, n - 1), Pow(b, n);
      assert q == b * p;
      ShrinkAtMostOne(b, p);
      assert b * p <= p;
    }
  }

  /** A negative power of a base in (0, 1] is at least 1. */
  lemma PowNegativeAtLeastOne(b: real, n: int)
    requires 0.0 < b <= 1.0
    requires n < 0
    ensures Pow(b, n) >= 1.0
  {
    PowAtMostOne(b, -n);
    var p, q := Pow(b, -n), Pow(b, n);
    assert q == 1.0 / p;
    InverseAtLeastOne(p);
  }

  /** Raising a base in (0, 1) to one more power strictly shrinks it. */
  lemma PowStrictlyDecreasing(b: real, n: nat)
    requires 0.0 < b < 1.0
    ensures Pow(b, n + 1) < Pow(b, n)
  {
    var p, q := Pow(b, n), Pow(b, n + 1);
    assert q == b * p;
    ShrinkBelowOne(b, p);
    assert b * p < p;
  }

  /** `b^n` and `b^-n` cancel: scrolling one way and back restores a product. */
  lemma PowCancels(b: real, n: int)
    requires b != 0.0
    ensures Pow(b, n) * Pow(b, -n) == 1.0
  {
    var p, q := Pow(b, n), Pow(b, -n);
    if n > 0 {
      assert q == 1.0 / p;
      InverseCancels(p);
    } else if n < 0 {
      assert p == 1.0 / q;
      InverseCancels(q);
      var pq, qp := p * q, q * p;
      assert pq == qp;
    }
  }

  /** Scaling by `b^n` and then by `b^-n` gives the original back. */
  lemma ScaleRoundTrip(x: real, b: real, n: int)
    requires b != 0.0
    ensures (x * Pow(b, n)) * Pow(b, -n) == x
  {
    PowCancels(b, n);
    MulAssociates(x, Pow(b, n), Pow(b, -n));
  }

  /** A positive power of a base in (0, 1) is below 1. */
  lemma PowBelowOne(b: real, n: int)
    requires 0.0 < b < 1.0
    requires n > 0
    ensures Pow(b, n) < 1.0
  {
    PowAtMostOne(b, n - 1);
    PowStrictlyDecreasing(b, n - 1);
  }

  /** For a base in (0, 1), a larger exponent gives a strictly smaller power. */
  lemma {:induction false} PowStrictlyDecreasingFrom(b: real, m: nat, n: nat)
    requires 0.0 < b < 1.0
    requires m < n
    ensures Pow(b, n) < Pow(b, m)
    decreases n - m
  {
    PowStrictlyDecreasing(b, n - 1);
    if m < n - 1 {
      PowStrictlyDecreasingFrom(b, m, n - 1);
    }
  }

  /** Non-negative powers are monotone in a positive base. */
  lemma {:induction false} PowMonotoneInBase(a: real, b: real, n: nat)
    requires 0.0 < a <= b
    ensures Pow(a, n) <= Pow(b, n)
  {
    if n > 0 {
      PowMonotoneInBase(a, b, n - 1);
      MulBothMonotone(a, b, Pow(a, n - 1), Pow(b, n - 1));
    }
  }

  /** Scaling by a positive power of a base in [0.9, 1) shrinks, but by no
      more than the same power of 0.9. */
  lemma PowShrinks(z: real, b: real, n: int)
    requires 0.0 < z && 0.9 <= b < 1.0 && n > 0
    ensures z * Pow(0.9, n) <= z * Pow(b, n) < z
  {
    PowBelowOne(b, n);
    PowMonotoneInBase(0.9, b, n);
    ShrinkBelowOne(Pow(b, n), z);
    MulMonotone(Pow(0.9, n), Pow(b, n), z);
  }

  lemma MulMonotone(x: real, y: real, z: real)
    requires x <= y && 0.0 <= z
    ensures x * z <= y * z && z * x <= z * y
  {
    assert y * z - x * z == (y - x) * z;
  }

  lemma MulBothMonotone(a: real, b: real, p: real, q: real)
    requires 0.0 <= a <= b && 0.0 <= p <= q
    ensures a * p <= b * q
  {
    MulMonotone(a, b, p);
    MulMonotone(p, q, b);
  }

  /** The product of two positive numbers is positive. */
  lemma PositiveProduct(x: real, y: real)
    requires x > 0.0 && y > 0.0
    ensures x * y > 0.0
  {
  }

  /** Scaling a positive number by a factor below 1 shrinks it. */
  lemma ShrinkBelowOne(x: real, z: real)
    requires x < 1.0 && 0.0 < z
    ensures z * x < z && x * z < z
  {
    assert z - z * x == z * (1.0 - x);
  }

  /** Scaling a non-negative number by a factor at most 1 does not grow it. */
  lemma ShrinkAtMostOne(x: real, z: real)
    requires x <= 1.0 && 0.0 <= z
    ensures x * z <= z
  {
    assert z - x * z == (1.0 - x) * z;
  }

  lemma MulAssociates(x: real, y: real, z: real)
    ensures (x * y) * z == x * (y * z)
  {
  }

  lemma InverseAtLeastOne(p: real)
    requires 0.0 < p <= 1.0
    ensures 1.0 / p >= 1.0
  {
  }

  lemma InverseCancels(p: real)
    requires p != 0.0
    ensures p * (1.0 / p) == 1.0 && (1.0 / p) * p == 1.0
  {
  }
}

=== FILE: render.dfy ===
/**
 GPU geometry buffers (graphics/render.go): a vertex buffer, an element
 (index) buffer and the vertex array object tying them together, and the
 indexed draw over a vertex array. `Surface` is declared in
 graphics/mesh.go and lives here because the element buffer uploads it.
 */
module Render {
  import opened Gl

  /** A triangle: exactly three vertex indices (`[3]uint32`). */
  datatype Surface = Surface(i0: Uint32, i1: Uint32, i2: Uint32)

  /** A vertex buffer name. */
  datatype VBO = VBO(name: nat)

  /** An element buffer name and its face count. */
  datatype EBO = EBO(name: nat, count: Int32)

  /** A vertex array name and the face count it draws. */
  datatype VAO = VAO(name: nat, count: Int32)

  /** `unsafe.Sizeof([3]float32{})`: three 4-byte floats. */
  const Vec3Size: nat := 3 * 4

  /** `unsafe.Sizeof(Surface{})`: three 4-byte indices. */
  const SurfaceSize: nat := 3 * 4

  const IndexOutOfRange := "runtime error: index out of range [0] with length 0"

  /** The contiguous `uint32` memory behind a slice of faces. */
  function Indices(faces: seq<Surface>): (r: seq<nat>)
    ensures |r| == 3 * |faces|
    ensures forall k :: 0 <= k < |faces| ==>
      r[3 * k] == faces[k].i0 && r[3 * k + 1] == faces[k].i1 && r[3 * k + 2] == faces[k].i2
  {
    if faces == [] then []
    else [faces[0].i0, faces[0].i1, faces[0].i2] + Indices(faces[1..])
  }

  /** The staging copy `a[i] = [3]float32{v[0], v[1], v[2]}`. */
  function Staging(vertices: seq<Vec3>): (a: seq<Vec3>)
    ensures a == vertices
  {
    var a := seq(|vertices|, i requires 0 <= i < |vertices| =>
      [vertices[i][0], vertices[i][1], vertices[i][2]]);
    assert forall i :: 0 <= i < |a| ==> a[i] == vertices[i];
    a
  }

  function VboCalls(name: nat, vertices: seq<Vec3>): seq<Call> {
    [GenBuffer(name), BindBuffer(ArrayBuffer, name),
     BufferFloats(ArrayBuffer, Vec3Size * |vertices|, Join(vertices))]
  }

  function EboCalls(name: nat, faces: seq<Surface>): seq<Call> {
    [GenBuffer(name), BindBuffer(ElementArrayBuffer, name),
     BufferUints(ElementArrayBuffer, SurfaceSize * |faces|, Indices(faces))]
  }

  function VaoCalls(name: nat, vbo: VBO, ebo: EBO): seq<Call> {
    RecordCalls(name, vbo, ebo) + AttributeCalls()
  }

  function RecordCalls(name: nat, vbo: VBO, ebo: EBO): seq<Call> {
    [GenVertexArray(name), BindVertexArray(name),
     BindBuffer(ArrayBuffer, vbo.name), BindBuffer(ElementArrayBuffer, ebo.name)]
  }

  /** Attribute 0 is three floats per vertex, `Vec3Size` bytes apart;
      the vertex array is unbound afterwards. */
  function AttributeCalls(): seq<Call> {
    [VertexAttribPointer(0, 3, Vec3Size), EnableVertexAttribArray(0), BindVertexArray(0)]
  }

  function DrawCalls(vao: VAO): seq<Call> {
    [BindVertexArray(vao.name), DrawTriangles(WrapInt32(vao.count * 3)), BindVertexArray(0)]
  }

  /** Generate a buffer name and bind it as the array buffer. */
  function GenArrayBuffer(ctx: Context, name: nat): (r: Context)
    ensures r == ctx.(lastName := Max(ctx.lastName, name), arrayBuffer := name,
                      log := ctx.log + [GenBuffer(name), BindBuffer(ArrayBuffer, name)])
  {
    Step(Step(ctx, GenBuffer(name)), BindBuffer(ArrayBuffer, name))
  }

  /** Generate a buffer name and bind it as the element buffer of the bound
      vertex array. */
  function GenElementBuffer(ctx: Context, name: nat): (r: Context)
    ensures r == ctx.(lastName := Max(ctx.lastName, name),
                      elementBuffers := ctx.elementBuffers[ctx.vertexArray := name],
                      log := ctx.log + [GenBuffer(name), BindBuffer(ElementArrayBuffer, name)])
  {
    Step(Step(ctx, GenBuffer(name)), BindBuffer(ElementArrayBuffer, name))
  }

  /** `constructVBO`: generate and bind a buffer, then upload a staging copy
      of the vertices; `&a[0]` panics on an empty slice. */
  method ConstructVBO(ctx: Context, vertices: seq<Vec3>) returns (r: Issued<VBO>)
    ensures r.out.Ok? <==> |vertices| > 0
    ensures !r.out.Ok? ==> r.out.Abort?
    ensures r.out.Ok? ==> r.out.value.name == NextName(ctx) == r.gl.lastName
    ensures r.out.Ok? ==> r.gl.log == ctx.log + VboCalls(r.out.value.name, vertices)
    ensures r.out.Ok? ==> r.gl.arrayBuffer == r.out.value.name
    ensures r.gl.vertexArray == ctx.vertexArray
    ensures r.gl == ctx.(lastName := r.gl.lastName, arrayBuffer := r.gl.arrayBuffer, log := r.gl.log)
  {
    var name := NextName(ctx);
    var a := Staging(vertices);
    var bound := GenArrayBuffer(ctx, name);
    if |a| == 0 {
      r := Issued(Abort(IndexOutOfRange), bound);
    } else {
      r := Issued(Ok(VBO(name)), Step(bound, BufferFloats(ArrayBuffer, Vec3Size * |a|, Join(a))));
    }
  }

  /** `constructEBO`: generate, bind and fill an element buffer; its count
      is `int32(len(faces))`; `&faces[0]` panics on an empty slice. */
  method ConstructEBO(ctx: Context, faces: seq<Surface>) returns (r: Issued<EBO>)
    ensures r.out.Ok? <==> |faces| > 0
    ensures !r.out.Ok? ==> r.out.Abort?
    ensures r.out.Ok? ==> r.out.value.name == NextName(ctx) == r.gl.lastName
    ensures r.out.Ok? && |faces| < 0x8000_0000 ==> r.out.value.count == |faces|
    ensures r.out.Ok? ==> r.gl.log == ctx.log + EboCalls(r.out.value.name, faces)
    ensures r.out.Ok? ==>
      ctx.vertexArray in r.gl.elementBuffers && r.gl.elementBuffers[ctx.vertexArray] == r.out.value.name
    ensures r.gl.vertexArray == ctx.vertexArray
    ensures r.gl == ctx.(lastName := r.gl.lastName,
                         elementBuffers := ctx.elementBuffers[ctx.vertexArray := NextName(ctx)],
                         log := r.gl.log)
  {
    var name := NextName(ctx);
    var bound := GenElementBuffer(ctx, name);
    if |faces| == 0 {
      r := Issued(Abort(IndexOutOfRange), bound);
    } else {
      r := Issued(Ok(EBO(name, WrapInt32(|faces|))),
                  Step(bound, BufferUints(ElementArrayBuffer, SurfaceSize * |faces|, Indices(faces))));
    }
  }

  /** The first half of `constructVAO`: a new vertex array, bound, with
      both buffers bound inside it. */
  function RecordBuffers(ctx: Context, name: nat, vbo: VBO, ebo: EBO): (r: Context)
    ensures r == ctx.(lastName := Max(ctx.lastName, name), vertexArray := name,
                      arrayBuffer := vbo.name,
                      elementBuffers := ctx.elementBuffers[name := ebo.name],
                      log := ctx.log + RecordCalls(name, vbo, ebo))
  {
    var g := Step(Step(ctx, GenVertexArray(name)), BindVertexArray(name));
    Step(Step(g, BindBuffer(ArrayBuffer, vbo.name)), BindBuffer(ElementArrayBuffer, ebo.name))
  }

  /** `constructVAO`: record both buffers and attribute 0 (three floats per
      vertex, tightly packed) in a new vertex array, then unbind it. */
  method ConstructVAO(ctx: Context, vbo: VBO, ebo: EBO) returns (r: Issued<VAO>)
    ensures r.out.Ok?
    ensures r.out.value.name == NextName(ctx) == r.gl.lastName
    ensures r.out.value.count == ebo.count
    ensures r.gl.log == ctx.log + VaoCalls(r.out.value.name, vbo, ebo)
    ensures r.gl.vertexArray == 0
    ensures r.out.value.name in r.gl.elementBuffers && r.gl.elementBuffers[r.out.value.name] == ebo.name
    ensures r.gl.arrayBuffer == vbo.name
    ensures r.gl == ctx.(lastName := r.gl.lastName, vertexArray := 0, arrayBuffer := vbo.name,
                         elementBuffers := ctx.elementBuffers[r.out.value.name := ebo.name],
                         log := r.gl.log)
  {
    var name := NextName(ctx);
    var g := DescribeAndUnbind(RecordBuffers(ctx, name, vbo, ebo));
    r := Issued(Ok(VAO(name, ebo.count)), g);
  }

  /** The second half of `constructVAO`: describe attribute 0 and unbind. */
  function DescribeAndUnbind(ctx: Context): (r: Context)
    ensures r == ctx.(vertexArray := 0, log := ctx.log + AttributeCalls())
  {
    var g := Step(Step(ctx, VertexAttribPointer(0, 3, Vec3Size)), EnableVertexAttribArray(0));
    Step(g, BindVertexArray(0))
  }

  /** `VAO.Draw`: bind the vertex array, draw `int32(count*3)` indices as
      triangles, and leave no vertex array bound. */
  function DrawVao(ctx: Context, vao: VAO): (r: Context)
    ensures r.log == ctx.log + DrawCalls(vao)
    ensures r.vertexArray == 0
    ensures r == ctx.(vertexArray := 0, log := r.log)
  {
    var g := Step(Step(ctx, BindVertexArray(vao.name)), DrawTriangles(WrapInt32(vao.count * 3)));
    Step(g, BindVertexArray(0))
  }

  /** A vertex array of `count` triangles draws `3 * count` indices, as
      long as that number fits in an `int32`. */
  lemma DrawVaoCount(ctx: Context, vao: VAO)
    requires 0 <= vao.count && 3 * vao.count < 0x8000_0000
    ensures DrawVao(ctx, vao).log[|ctx.log| + 1] == DrawTriangles(3 * vao.count)
  {
    assert DrawCalls(vao)[1] == DrawTriangles(WrapInt32(vao.count * 3));
  }
}

=== FILE: shadersource.dfy ===
/**
 Reading shader text from disk (`ShaderSourceFromPath`, graphics/program.go).
 The file system is a map from path to contents; a path absent from the map
 is one `os.ReadFile` fails on.
 */
module ShaderSource {

  type Files = map<string, string>

  /** What `ShaderSourceFromPath` returns: the text, and whether the read
      failed (Go returns the text even then). */
  datatype Source = Source(text: string, failed: bool)

  /** The file contents with the NUL terminator the GL bindings expect.
      On a failed read the contents are empty, so the text is the NUL alone. */
  function ShaderSourceFromPath(files: Files, path: string): (r: Source)
    ensures r.failed <==> path !in files
    ensures |r.text| > 0 && r.text[|r.text| - 1] == '\0'
    ensures !r.failed ==> r.text[..|r.text| - 1] == files[path]
    ensures r.failed ==> r.text == "\0"
  {
    var contents := if path in files then files[path] else "";
    Source(contents + "\0", path !in files)
  }
}

=== FILE: viewer.dfy ===
/**
 The viewer (viewer.go): the full-screen triangle the fractal is drawn on,
 the seven uniforms of the fractal program and the values pushed to them
 each frame, and the older variant of the input callbacks.

 The variant callbacks are the ones viewer.go still declares next to the
 current controller of control.go; they know only the focus modes None,
 Scale and Time, and their scroll rule zooms by `(1 - sensitivity)^yoff`.
 */
module Viewer {
  import opened Gl
  import opened Render
  import Meshes
  import opened Fractals
  import opened RealMath
  import opened AppState
  import Control
  import ShaderProgram

  /** `initCanvas`'s mesh: one triangle over (-1,-1), (-1,3) and (3,-1). */
  function Triangle(): Meshes.Mesh {
    Meshes.Mesh([[-1.0, -1.0, 0.0], [-1.0, 3.0, 0.0], [3.0, -1.0, 0.0]], [Surface(0, 1, 2)])
  }

  lemma TriangleValid()
    ensures Meshes.Valid(Triangle())
    ensures |Triangle().vertices| == 3 && Triangle().faces == [Surface(0, 1, 2)]
  {
  }

  /** Barycentric weights of the point (x, y) with respect to the triangle.
      Every point of the viewport [-1, 1] x [-1, 1] gets non-negative
      weights: the one triangle covers the whole screen. */
  function Weights(x: real, y: real): (w: (real, real, real))
    ensures w.0 + w.1 + w.2 == 1.0
    ensures var v := Triangle().vertices;
      && w.0 * v[0][0] + w.1 * v[1][0] + w.2 * v[2][0] == x
      && w.0 * v[0][1] + w.1 * v[1][1] + w.2 * v[2][1] == y
    ensures -1.0 <= x <= 1.0 && -1.0 <= y <= 1.0 ==> w.0 >= 0.0 && w.1 >= 0.0 && w.2 >= 0.0
  {
    ((2.0 - x - y) / 4.0, (y + 1.0) / 4.0, (x + 1.0) / 4.0)
  }

  /** `initCanvas`: upload the triangle; its vertex array draws one face. */
  method InitCanvas(ctx: Context) returns (r: Issued<VAO>)
    ensures r.out.Ok?
    ensures r.out.value.count == 1
    ensures r.out.value.name == NextName(ctx) + 2 == r.gl.lastName
    ensures r.gl.vertexArray == 0
  {
    TriangleValid();
    r := Meshes.Load(ctx, Triangle());
  }

  /** Drawing the canvas draws the three indices of its one triangle. */
  lemma CanvasDrawsOneTriangle(ctx: Context, canvas: VAO)
    requires canvas.count == 1
    ensures DrawVao(ctx, canvas).log[|ctx.log| + 1] == DrawTriangles(3)
    ensures DrawVao(ctx, canvas).vertexArray == 0
  {
    DrawVaoCount(ctx, canvas);
  }

  /** The uniform names of the fractal program, in the order of `Uniforms`. */
  const UniformNames: seq<string> := ["aspect", "c", "PZ0", "PZn", "offR", "offI", "scale"]

  /** The locations held in a `Uniforms` record, in the order of `UniformNames`. */
  function Locations(u: Uniforms): (r: seq<Int32>)
    ensures |r| == |UniformNames|
  {
    [u.aspect, u.c, u.pz0, u.pzn, u.offR, u.offI, u.scale]
  }

  datatype Located = Located(uniforms: Uniforms, gl: Context)

  /** Location queries only add to the log. */
  lemma {:induction false} RunLocationQueries(ctx: Context, calls: seq<Call>)
    requires forall i :: 0 <= i < |calls| ==> calls[i].GetUniformLocation?
    ensures Run(ctx, calls) == ctx.(log := ctx.log + calls)
    decreases |calls|
  {
    if calls != [] {
      var next := Step(ctx, calls[0]);
      assert next == ctx.(log := ctx.log + [calls[0]]);
      assert forall i :: 0 <= i < |calls[1..]| ==> calls[1..][i].GetUniformLocation?;
      RunLocationQueries(next, calls[1..]);
      assert ctx.log + [calls[0]] + calls[1..] == ctx.log + calls;
    }
  }

  /** `getUniforms`: ask the driver for the location of each name in turn.
      Field `i` of the record is the location of `UniformNames[i]`. */
  function GetUniforms(ctx: Context, program: nat, location: (nat, string) -> Int32): (r: Located)
    ensures forall i :: 0 <= i < |UniformNames| ==>
      Locations(r.uniforms)[i] == location(program, UniformNames[i])
    ensures r.gl == ctx.(log := ctx.log + ShaderProgram.LocationQueries(program, UniformNames))
  {
    RunLocationQueries(ctx, ShaderProgram.LocationQueries(program, UniformNames));
    var u := Uniforms(location(program, "aspect"), location(program, "c"), location(program, "PZ0"),
                      location(program, "PZn"), location(program, "offR"), location(program, "offI"),
                      location(program, "scale"));
    Located(u, Run(ctx, ShaderProgram.LocationQueries(program, UniformNames)))
  }

  /** `setUniforms`: the aspect ratio, the three components of the fractal
      in the order `GetFractal` flattens them, the offset and the scale,
      each at its own location. */
  function SetUniformCalls(v: ViewerState): (r: seq<Call>)
    ensures Pushes(r) && |r| == |UniformNames|
    ensures forall i :: 0 <= i < |r| ==> r[i].location == Locations(v.uniforms)[i]
    ensures r[1].Written() == Floats(Flatten(v.fractal)[0..2])
    ensures r[2].Written() == Floats(Flatten(v.fractal)[2..4])
    ensures r[3].Written() == Floats(Flatten(v.fractal)[4..6])
    ensures r[0].Written() == Floats([v.aspectRatio])
    ensures r[4].Written() == Floats([v.offsetX]) && r[5].Written() == Floats([v.offsetY])
    ensures r[6].Written() == Floats([v.scale])
  {
    var f, u := v.fractal, v.uniforms;
    assert Flatten(f)[0..2] == [f.c.re, f.c.im];
    assert Flatten(f)[2..4] == [f.pz0.c0, f.pz0.c1];
    assert Flatten(f)[4..6] == [f.pzn.c0, f.pzn.c1];
    [Uniform1f(u.aspect, v.aspectRatio),
     Uniform2f(u.c, f.c.re, f.c.im),
     Uniform2f(u.pz0, f.pz0.c0, f.pz0.c1),
     Uniform2f(u.pzn, f.pzn.c0, f.pzn.c1),
     Uniform1f(u.offR, v.offsetX),
     Uniform1f(u.offI, v.offsetY),
     Uniform1f(u.scale, v.scale)]
  }

  /** The pushes target the locations the lookup found for the names the
      fractal program declares, name by name. */
  lemma SetUniformsTargetsNames(ctx: Context, program: nat, location: (nat, string) -> Int32, v: ViewerState)
    requires v.uniforms == GetUniforms(ctx, program, location).uniforms
    ensures forall i :: 0 <= i < |UniformNames| ==>
      SetUniformCalls(v)[i].location == location(program, UniformNames[i])
  {
  }

  /** Seven live, pairwise distinct locations. */
  predicate Separate(u: Uniforms) {
    && (forall i :: 0 <= i < |UniformNames| ==> Locations(u)[i] != -1)
    && (forall i, j :: 0 <= i < j < |UniformNames| ==> Locations(u)[i] != Locations(u)[j])
  }

  /** What the fractal program reads from its uniforms, or `Unreadable` when
      a location holds nothing or a value of the wrong shape. */
  datatype Reading =
    | Reading(aspect: real, fractal: Fractal, offsetX: real, offsetY: real, scale: real)
    | Unreadable

  predicate Holds(store: map<(nat, int), Value>, program: nat, location: int, n: nat) {
    (program, location) in store && store[(program, location)].Floats? && |store[(program, location)].fs| == n
  }

  function Read(store: map<(nat, int), Value>, program: nat, u: Uniforms): Reading {
    if && Holds(store, program, u.aspect, 1) && Holds(store, program, u.c, 2)
       && Holds(store, program, u.pz0, 2) && Holds(store, program, u.pzn, 2)
       && Holds(store, program, u.offR, 1) && Holds(store, program, u.offI, 1)
       && Holds(store, program, u.scale, 1)
    then
      var fs := store[(program, u.c)].fs + store[(program, u.pz0)].fs + store[(program, u.pzn)].fs;
      Reading(store[(program, u.aspect)].fs[0], Unflatten(fs),
              store[(program, u.offR)].fs[0], store[(program, u.offI)].fs[0], store[(program, u.scale)].fs[0])
    else Unreadable
  }

  /** With seven separate locations, each one ends up holding its own push. */
  lemma SetUniformsStores(v: ViewerState, ctx: Context)
    requires Separate(v.uniforms)
    ensures forall i :: 0 <= i < |UniformNames| ==>
      (ctx.program, Locations(v.uniforms)[i]) in Run(ctx, SetUniformCalls(v)).uniforms &&
      Run(ctx, SetUniformCalls(v)).uniforms[(ctx.program, Locations(v.uniforms)[i])]
        == SetUniformCalls(v)[i].Written()
  {
    var calls := SetUniformCalls(v);
    forall i | 0 <= i < |UniformNames|
      ensures (ctx.program, Locations(v.uniforms)[i]) in Run(ctx, calls).uniforms
      ensures Run(ctx, calls).uniforms[(ctx.program, Locations(v.uniforms)[i])] == calls[i].Written()
    {
      RunStoresLastWrite(ctx, calls, i);
    }
  }

  /** With seven separate locations, the program in use reads back exactly
      the view and the fractal that were pushed. */
  lemma SetUniformsDelivers(v: ViewerState, ctx: Context)
    requires Separate(v.uniforms)
    ensures Read(Run(ctx, SetUniformCalls(v)).uniforms, ctx.program, v.uniforms)
         == Reading(v.aspectRatio, v.fractal, v.offsetX, v.offsetY, v.scale)
  {
    SetUniformsStores(v, ctx);
    ReadBack(Run(ctx, SetUniformCalls(v)).uniforms, ctx.program, v);
  }

  /** Reading the seven pushes of a view gives the view back. */
  lemma ReadBack(store: map<(nat, int), Value>, program: nat, v: ViewerState)
    requires forall i :: 0 <= i < |UniformNames| ==>
      (program, Locations(v.uniforms)[i]) in store &&
      store[(program, Locations(v.uniforms)[i])] == SetUniformCalls(v)[i].Written()
    ensures Read(store, program, v.uniforms) == Reading(v.aspectRatio, v.fractal, v.offsetX, v.offsetY, v.scale)
  {
    var f, u := v.fractal, v.uniforms;
    assert store[(program, u.aspect)] == Floats([v.aspectRatio]) by { assert Locations(u)[0] == u.aspect; }
    assert store[(program, u.c)] == Floats([f.c.re, f.c.im]) by { assert Locations(u)[1] == u.c; }
    assert store[(program, u.pz0)] == Floats([f.pz0.c0, f.pz0.c1]) by { assert Locations(u)[2] == u.pz0; }
    assert store[(program, u.pzn)] == Floats([f.pzn.c0, f.pzn.c1]) by { assert Locations(u)[3] == u.pzn; }
    assert store[(program, u.offR)] == Floats([v.offsetX]) by { assert Locations(u)[4] == u.offR; }
    assert store[(program, u.offI)] == Floats([v.offsetY]) by { assert Locations(u)[5] == u.offI; }
    assert store[(program, u.scale)] == Floats([v.scale]) by { assert Locations(u)[6] == u.scale; }
    assert [f.c.re, f.c.im] + [f.pz0.c0, f.pz0.c1] + [f.pzn.c0, f.pzn.c1] == Flatten(f);
    FlattenRoundTrip(f);
  }

  /** Variant `CursorPosCallback` once the position is normalised: a left
      drag pans by the mouse movement times the scale; no pinning. */
  function CursorPos(s: State, x: real, y: real, left: bool): (r: State)
    ensures left ==> r.viewer.offsetX == s.viewer.offsetX + (s.control.mouseX - x) * s.viewer.scale
    ensures left ==> r.viewer.offsetY == s.viewer.offsetY + (s.control.mouseY - y) * s.viewer.scale
    ensures !left ==> r.viewer == s.viewer
    ensures r.viewer == s.viewer.(offsetX := r.viewer.offsetX, offsetY := r.viewer.offsetY)
    ensures r.control == s.control.(mouseX := x, mouseY := y)
    ensures r.animation == s.animation
  {
    var v := if left then
        s.viewer.(offsetX := s.viewer.offsetX + (s.control.mouseX - x) * s.viewer.scale,
                  offsetY := s.viewer.offsetY + (s.control.mouseY - y) * s.viewer.scale)
      else s.viewer;
    State(s.animation, v, s.control.(mouseX := x, mouseY := y))
  }

  /** The variant is the current controller without the right button. */
  lemma CursorPosAgrees(s: State, x: real, y: real, left: bool, right: bool)
    ensures CursorPos(s, x, y, left) == Control.CursorPos(s, x, y, left, false)
    ensures s.control.focus != Coefficient ==> CursorPos(s, x, y, left) == Control.CursorPos(s, x, y, left, right)
  {
  }

  /** How the variant scroll ends. `math.Pow(0, y)` is +Inf for y < 0, so at
      sensitivity 1 a scroll down sends the scale to +Inf, or to NaN once
      the scale is 0 (0 times +Inf). */
  datatype Scrolled = Scrolled(next: State) | ScaleDiverges

  /** The variant zoom base `1 - sensitivity`. */
  function VariantBase(sensitivity: real): (r: real)
    requires 0.0 <= sensitivity <= 1.0
    ensures 0.0 <= r <= 1.0
    ensures r == 0.0 <==> sensitivity == 1.0
  {
    1.0 - sensitivity
  }

  /** The focus switch of the variant `ScrollCallback`, after the
      sensitivity update: Scale multiplies by `(1 - sensitivity)^yoff`,
      Time adds `yoff * sensitivity` and clamps to [0, 1]. */
  function Wheel(s: State, yoff: int): (r: Scrolled)
    requires 0.0 <= s.control.sensitivity <= 1.0
    ensures r.ScaleDiverges? <==> s.control.focus == Scale && s.control.sensitivity == 1.0 && yoff < 0
    ensures r.Scrolled? ==> r.next.control == s.control
    ensures r.Scrolled? && s.control.focus == Scale ==>
      && r.next == s.(viewer := s.viewer.(scale := r.next.viewer.scale))
      && r.next.viewer.scale == s.viewer.scale * Pow(VariantBase(s.control.sensitivity), yoff)
    ensures r.Scrolled? && s.control.focus == Time ==>
      && r.next == s.(animation := s.animation.(time := r.next.animation.time))
      && 0.0 <= r.next.animation.time <= 1.0
      && r.next.animation.time == Clamp(s.animation.time + (yoff as real) * s.control.sensitivity, 0.0, 1.0)
    ensures s.control.focus == None || s.control.focus == Coefficient ==> r == Scrolled(s)
  {
    match s.control.focus
    case Scale =>
      if s.control.sensitivity == 1.0 && yoff < 0 then ScaleDiverges
      else Scrolled(s.(viewer := s.viewer.(scale := s.viewer.scale * Pow(VariantBase(s.control.sensitivity), yoff))))
    case Time =>
      Scrolled(s.(animation := s.animation.(time :=
        Clamp(s.animation.time + (yoff as real) * s.control.sensitivity, 0.0, 1.0))))
    case _ => Scrolled(s)
  }

  /** Variant `ScrollCallback`: the sensitivity rule of the current
      controller, then the variant focus switch. */
  function Scroll(s: State, xoff: int, yoff: int): (r: Scrolled)
    ensures r.ScaleDiverges? <==>
      s.control.focus == Scale && Control.Tune(s, xoff).control.sensitivity == 1.0 && yoff < 0
    ensures r.Scrolled? ==> 0.0 <= r.next.control.sensitivity <= 1.0
    ensures r.Scrolled? ==> r.next.control == Control.Tune(s, xoff).control
    ensures r.Scrolled? && s.control.focus == Scale ==>
      && r.next.animation == s.animation
      && r.next.viewer == s.viewer.(scale := s.viewer.scale * Pow(1.0 - r.next.control.sensitivity, yoff))
    ensures r.Scrolled? && s.control.focus == Time ==>
      && r.next.viewer == s.viewer
      && 0.0 <= r.next.animation.time <= 1.0
      && r.next.animation == s.animation.(time :=
           Clamp(s.animation.time + (yoff as real) * r.next.control.sensitivity, 0.0, 1.0))
    ensures r.Scrolled? && (s.control.focus == None || s.control.focus == Coefficient) ==>
      r.next.viewer == s.viewer && r.next.animation == s.animation
  {
    Wheel(Control.Tune(s, xoff), yoff)
  }

  /** The variant scale rule keeps a positive scale only while the
      sensitivity is below 1. */
  lemma WheelScalePositive(s: State, yoff: int)
    requires Valid(s) && s.control.focus == Scale && s.control.sensitivity < 1.0
    ensures Wheel(s, yoff).Scrolled? && Valid(Wheel(s, yoff).next)
  {
    var b := VariantBase(s.control.sensitivity);
    assert Pow(b, yoff) > 0.0;
    PositiveProduct(s.viewer.scale, Pow(b, yoff));
  }

  lemma ZeroProduct(x: real, y: real)
    requires y == 0.0
    ensures x * y == 0.0
  {
  }

  /** At sensitivity 1 a scroll up collapses the view to scale 0, and no
      scroll down brings it back: it diverges instead. */
  lemma WheelCollapses(s: State, yoff: int)
    requires s.control.focus == Scale && s.control.sensitivity == 1.0 && yoff > 0
    ensures Wheel(s, yoff).Scrolled?
    ensures Wheel(s, yoff).next.viewer.scale == 0.0
    ensures !Valid(Wheel(s, yoff).next)
    ensures Wheel(Wheel(s, yoff).next, -yoff) == ScaleDiverges
  {
    ZeroProduct(s.viewer.scale, Pow(VariantBase(s.control.sensitivity), yoff));
  }

  /** Away from sensitivity 0 and 1, scrolling up and back down restores
      the view, as in the current controller. */
  lemma WheelRoundTrip(s: State, n: int)
    requires Valid(s) && s.control.focus == Scale && s.control.sensitivity < 1.0
    ensures Wheel(s, n).Scrolled?
    ensures Wheel(Wheel(s, n).next, -n).Scrolled?
    ensures Wheel(Wheel(s, n).next, -n).next.viewer == s.viewer
  {
    var once := Wheel(s, n).next;
    assert once.viewer.scale == s.viewer.scale * Pow(VariantBase(s.control.sensitivity), n);
    ScaleRoundTrip(s.viewer.scale, VariantBase(s.control.sensitivity), n);
  }

  /** Variant `KeyCallback`: Escape closes on press; on release N, S and T
      pick the focus, and Ctrl+S saves instead; held keys do nothing. */
  function Key(s: State, key: Control.Key, action: Control.Action, mods: int): (r: Control.Reaction)
    ensures r.effect == Control.CloseWindow <==> action == Control.Press && key == Control.KeyEscape
    ensures r.effect == Control.SaveSnapshot <==>
      action == Control.Release && key == Control.KeyS && mods == Control.ModControl
    ensures r.next == s.(control := s.control.(focus := r.next.control.focus))
    ensures action == Control.Release && key == Control.KeyN ==> r.next.control.focus == None
    ensures action == Control.Release && key == Control.KeyS ==>
      r.next.control.focus == (if mods == Control.ModControl then s.control.focus else Scale)
    ensures action == Control.Release && key == Control.KeyT ==> r.next.control.focus == Time
    ensures !(action == Control.Release && key in {Control.KeyN, Control.KeyS, Control.KeyT}) ==> r.next == s
  {
    match action
    case Press =>
      Control.Reaction(s, if key == Control.KeyEscape then Control.CloseWindow else Control.NoEffect)
    case Release =>
      (match key
       case KeyN => Control.Reaction(s.(control := s.control.(focus := None)), Control.NoEffect)
       case KeyS =>
         if mods == Control.ModControl then Control.Reaction(s, Control.SaveSnapshot)
         else Control.Reaction(s.(control := s.control.(focus := Scale)), Control.NoEffect)
       case KeyT => Control.Reaction(s.(control := s.control.(focus := Time)), Control.NoEffect)
       case _ => Control.Reaction(s, Control.NoEffect))
    case Repeat => Control.Reaction(s, Control.NoEffect)
  }

  /** On the keys both controllers know, the variant and the current
      controller agree; the variant ignores C, the digits and a held P. */
  lemma KeyAgrees(s: State, key: Control.Key, action: Control.Action, mods: int)
    ensures !(key == Control.KeyC || key.KeyDigit? || (action == Control.Repeat && key == Control.KeyP)) ==>
      Key(s, key, action, mods) == Control.KeyEvent(s, key, action, mods)
    ensures Key(s, key, action, mods).effect == Control.KeyEvent(s, key, action, mods).effect
  {
  }

  /** The variant key callback keeps the invariant. */
  lemma KeyPreservesValid(s: State, key: Control.Key, action: Control.Action, mods: int)
    requires Valid(s)
    ensures Valid(Key(s, key, action, mods).next)
  {
  }
}
